=== FILE: README.md ===
# Logix in Dafny

Logix is a small rule language. A rule file is a sequence of statements. A
statement is either a condition such as `user.age gte 18` or
`user.role not in ["guest", "banned"]`, or an indented `group and` / `group or`
block whose children are more statements. A run evaluates the statements
against a context, which is a JSON-like object. The run is true when every
statement is true. It stops at the first false statement or the first error.

The pipeline of the Go program is modelled here stage by stage:

- **Tokens and LexSpec / Lexing** (`lexer/lexer.go`): the lexer, including its
  indentation handling. This covers style detection at the first indented line,
  the indentation stack, INDENT and bursts of DEDENTs, comments, strings, words,
  numbers and ILLEGAL characters. `LexSpec` states each step as a function on a
  `LexState` value. `Lexing.Lexer` is a class with the Go fields (`input`,
  `position`, `readPosition`, `ch`, `indentStack`, `dedentCount`, `indentWidth`,
  `useSpaces`). Each of its methods is proved to leave the state the matching
  `LexSpec` function computes. `LexFacts` proves what the lexer promises over
  many calls.
- **Ast, ParseSpec / Parsing** (`parser/parser.go`): the recursive-descent
  parser. `ParseSpec` reads a `Feed`, which is the tokens the lexer will hand
  out (INDENTs included), followed by EOF or by the lexer's failure.
  `Parsing.Parser` is a class holding the lexer and `currToken`. Each method is
  proved to compute the matching `ParseSpec` function on the feed of its
  current state. `ParseFacts` proves what the grammar does on concrete shapes of
  input.
- **Paths and Evaluator** (`evaluator/evaluator.go`): how a field path is
  resolved in the context, and what each operator and each group computes.
  These are functions, with lemmas stating their meaning. The Go loops
  (`resolveFieldValue`, `evaluateIn`, `evaluateGroup`) are methods proved
  against those functions.
- **Logix** (`evaluator/evaluator.go` Evaluate and `main.go` EvaluateLogix): the
  statement loop, and the whole run from text to verdict.

Every Go panic becomes a `Failure` of a `Result` datatype, so each operation
states its error cases next to its happy path.

## Model

| member | source | states |
|---|---|---|
| Tokens.SpellingInTable | lexer/lexer.go:41-60 | every keyword kind is in the keyword table under its own spelling |
| Tokens.TableSpelling | lexer/lexer.go:41-60 | every word of the keyword table is the spelling of a keyword kind, so the table and Spelling are inverse |
| Tokens.LookupKeyword | lexer/lexer.go:240-246 | a word lexes to IDENT exactly when it is not a reserved word; otherwise it lexes to the keyword kind the table gives |
| Tokens.KeywordTokenValid | lexer/lexer.go:137-139 | a scanned word makes a well-formed token, whether it is a keyword or an identifier |
| Tokens.ValidTokenSpelled | lexer/lexer.go:126-148 | every token the lexer can produce has the lexeme the parser relies on: digits for NUMBER, `and` and `or` for AND and OR, empty for EOF |
| LexSpec.Until | lexer/lexer.go:156-158 | a scanning loop stops at the first stopping character at or after the start; the end of input (NUL) always stops it |
| LexSpec.UntilIsFirst | lexer/lexer.go:156-158 | any position that is preceded only by non-stopping characters and holds a stopping one is where the scan ends |
| LexSpec.Init | lexer/lexer.go:78-89 | a new lexer is well formed: the cursor is on the first character, the stack is [0] and the style is undetected |
| LexSpec.DetectMode | lexer/lexer.go:169-195 | the style is set once and only at a newline followed by a space or a tab; nothing else in the state changes; the only failure is while the style is unset |
| LexSpec.DetectedStyle | lexer/lexer.go:169-195 | a tab-led first indented line gives tabs of width 1; a space-led one gives spaces, with the width of the leading whitespace run; any other line leaves the state as it is |
| LexSpec.IndentCount | lexer/lexer.go:205-225 | the count is the run of indent characters right after the newline, and the run ends inside the input |
| LexSpec.PopAbove | lexer/lexer.go:106-109 | popping for a shallower line leaves a well-formed prefix of the stack holding exactly the entries not above the new level |
| LexSpec.Indentation | lexer/lexer.go:99-113 | a deeper line pushes its level once and yields INDENT; an equal line yields nothing and leaves the stack unchanged; a shallower line pops every deeper level, yields one DEDENT and leaves one pending per further pop; the stack stays well formed |
| LexSpec.ScanString | lexer/lexer.go:151-167 | a string token is the text between the quotes, and the cursor moves past the closing quote; without a closing quote the token is ILLEGAL "Unclosed string" and the cursor is on a NUL, which is the end of input or a NUL byte in the middle of it (lexer.go:157 stops on either) |
| LexSpec.ScanStringEnds | lexer/lexer.go:151-167 | which of the two outcomes occurs is decided by the character where the body scan stops |
| LexSpec.ScanWord | lexer/lexer.go:267-275 | a word is the maximal run of identifier characters (letters, digits, `_`, `.`, `[`, `]`) and its kind is the keyword lookup |
| LexSpec.ScanNumber | lexer/lexer.go:259-265 | a number is the maximal run of digits |
| LexSpec.Scan | lexer/lexer.go:126-148 | an ordinary token is never INDENT or DEDENT; it is EOF exactly when the current character is NUL, which includes the end of input and a NUL byte in the middle of it, and then the state is unchanged; every other token consumes input; `[`, `]` and `,` give their one-character token and move one character on; any other character that starts no token gives ILLEGAL carrying that character, and scanning resumes at the next character |
| LexSpec.ScanStepped | lexer/lexer.go:126-148 | a token scanned mid-line keeps the lexer's invariant and makes progress |
| LexSpec.CommentStepped | lexer/lexer.go:118-124 | restarting after a comment keeps the invariant and the progress of the token found after it |
| LexSpec.IndentStepped | lexer/lexer.go:99-113 | an INDENT or the first DEDENT of a burst keeps the invariant and makes progress |
| LexSpec.Next | lexer/lexer.go:91-149 | each call yields a well-formed token and a well-formed state on the same input; the stack stays non-empty, starts at 0 and increases strictly; the state gets strictly closer to the end unless the token is EOF; the only failure is the overrun while the style is undetected |
| LexSpec.Structure | lexer/lexer.go:93-113 | the same guarantees once the style is settled: a pending DEDENT, an INDENT or DEDENT at a newline, or the rest of the line |
| LexSpec.Continue | lexer/lexer.go:115-148 | the same guarantees for the rest of a line: blanks skipped, a comment skipped and lexing restarted, or one token scanned |
| Lexing.Lexer.constructor | lexer/lexer.go:78-89 | NewLexer builds the state of LexSpec.Init |
| Lexing.Lexer.ReadRune | lexer/lexer.go:248-257 | the cursor moves one character; `ch` becomes NUL past the end |
| Lexing.Lexer.Peek | lexer/lexer.go:197-203 | the character after the cursor, or NUL past the end |
| Lexing.Lexer.SetIndentationMode | lexer/lexer.go:169-195 | leaves the state of LexSpec.DetectMode, and reports the overrun where the Go code indexes past its input |
| Lexing.Lexer.ReadIndentLevel | lexer/lexer.go:205-225 | consumes the indentation and returns LexSpec.IndentLevel |
| Lexing.Lexer.SkipWhitespace | lexer/lexer.go:227-234 | moves the cursor to the first character that is not a space, tab, newline or carriage return |
| Lexing.Lexer.SkipComment | lexer/lexer.go:118-124 | moves the cursor to the newline or NUL that ends the comment |
| Lexing.Lexer.ReadStringToken | lexer/lexer.go:151-167 | returns the token and leaves the state of LexSpec.ScanString |
| Lexing.Lexer.ReadStringBody | lexer/lexer.go:156-159 | moves the cursor to the first quote or NUL after it |
| Lexing.Lexer.ReadLexeme | lexer/lexer.go:267-275 | returns the maximal identifier run and moves past it |
| Lexing.Lexer.ReadNumber | lexer/lexer.go:259-265 | returns the maximal digit run and moves past it |
| Lexing.Lexer.ScanToken | lexer/lexer.go:126-148 | returns the token and leaves the state of LexSpec.Scan |
| Lexing.Lexer.PopIndents | lexer/lexer.go:106-110 | leaves the stack of LexSpec.PopAbove and counts one pending DEDENT per pop, minus the one returned |
| Lexing.Lexer.Indentation | lexer/lexer.go:99-113 | returns the token and leaves the state of LexSpec.Indentation |
| Lexing.Lexer.Next | lexer/lexer.go:91-149 | returns the token and leaves the state of LexSpec.Next, and the class invariant holds afterwards |
| Lexing.Lexer.Structure | lexer/lexer.go:93-113 | computes LexSpec.Structure on the object's state |
| Lexing.Lexer.ContinueLine | lexer/lexer.go:115-148 | computes LexSpec.Continue on the object's state, the comment case restarting Next |
| LexFacts.LexStep | lexer/lexer.go:91-149 | lexing n tokens is one call of Next followed by n - 1 more |
| LexFacts.PendingDedentsDrain | lexer/lexer.go:94-97 | pending DEDENTs come out first, one per call, and touch nothing but the count |
| LexFacts.DrainAfter | lexer/lexer.go:105-111 | a DEDENT is followed by exactly the DEDENTs it left pending |
| LexFacts.DedentBurst | lexer/lexer.go:99-111 | a line k levels shallower yields exactly k DEDENTs in a row and pops exactly k entries from the stack |
| LexFacts.AtEndStaysAtEnd | lexer/lexer.go:142-143 | at the end of input with nothing pending, Next yields EOF and changes nothing |
| LexFacts.EofIsFinal | lexer/lexer.go:142-143 | after EOF the next call yields EOF again on the same state |
| LexFacts.StuckAtEof | lexer/lexer.go:142-143 | a state where Next yields EOF without moving yields EOF on every later call |
| LexFacts.EofForever | lexer/lexer.go:142-143 | after EOF, any number of further calls yields only EOF |
| LexFacts.DeeperLinePushesOnce | lexer/lexer.go:99-104 | a deeper line pushes its level exactly once, yields one INDENT and leaves nothing pending |
| LexFacts.ContinueIgnoresOrigin | lexer/lexer.go:115-148 | the rest of a line depends only on the cursor state, not on where the line began |
| LexFacts.EqualIndentContinues | lexer/lexer.go:99-115 | on a line of equal indentation, Next skips the indentation and lexes the line |
| LexFacts.MidLineContinues | lexer/lexer.go:93-115 | off a newline and with nothing pending, Next lexes the rest of the line |
| LexFacts.EqualIndentIsTransparent | lexer/lexer.go:99-115 | equal, non-zero indentation yields no token: when the line after the newline is indented by IndentCount(s1) > 0 characters at the current level, Next from the newline is Next restarted at s.position + IndentCount(s1), which is the last indentation character, where readIndentLevel leaves the cursor |
| LexFacts.CommentIsTransparent | lexer/lexer.go:118-124 | a comment yields no token: Next from `#` is Next from the newline or NUL that ends it |
| Ast.AllScalarAppend | parser/parser.go:135-137 | appending a scalar to a list of scalars gives a list of scalars |
| ParseSpec.Tokenize | lexer/lexer.go:91-149 | the tokens the lexer hands out from a state form a well-formed feed |
| ParseSpec.TokenizeStep | parser/parser.go:102-108 | the feed is Next's token followed by the feed of Next's state; it ends at EOF or at the lexer's failure |
| ParseSpec.SkipIndents | parser/parser.go:102-108 | nextToken yields a ready state that is no longer than before; it fails only when the lexer fails |
| ParseSpec.SkipIndentsDropsIndents | parser/parser.go:102-108 | every token skipped by nextToken is an INDENT, and the parser never sees an INDENT as currToken |
| ParseSpec.Advance | parser/parser.go:102-108 | one nextToken consumes at least the current token, except at EOF, where nothing moves |
| ParseSpec.Begin | parser/parser.go:31-35 | NewParser yields a ready parser state |
| ParseSpec.ParseValue | parser/parser.go:152-174 | every operand is a scalar |
| ParseSpec.ParseValueMeaning | parser/parser.go:152-174 | true and false are booleans; NUMBER is the decimal value of its digits; STRING is its text; every other token kind (nil included) is null; each in both directions |
| ParseSpec.ParseCondition | parser/parser.go:37-62 | the condition names its field, is well formed and consumes input; a NegationNotSupported failure always names an operator outside in/contains/between/startsWith/endsWith (that such an operator after `not` does fail is ParseFacts.NegatedCondition) |
| ParseSpec.ParseOperands | parser/parser.go:53-60 | `between` takes exactly two operands; `[` opens an array; anything else is one operand, the token's value |
| ParseSpec.ParseRange | parser/parser.go:88-100 | a range is the current operand and the one after `and`; a missing `and` fails |
| ParseSpec.ParseArray | parser/parser.go:131-150 | an array ends on `]` and holds only scalars; a failure is the lexer's or UnterminatedArray (that input ending before `]` gives UnterminatedArray is ParseFacts.ArrayUnterminated) |
| ParseSpec.ArrayItems | parser/parser.go:134-141 | the items extend what was collected so far; reaching EOF fails |
| ParseSpec.NextItem | parser/parser.go:135-140 | one item is the current token's value, with an optional comma after it |
| ParseSpec.SkipComma | parser/parser.go:139-141 | a comma after an item is skipped |
| ParseSpec.ParseGroup | parser/parser.go:64-86 | a group needs `and` or `or` after `group`: any other token fails with ExpectedLogicalOp holding that token's lexeme, and a failing nextToken fails the group; on success the group is well formed, its logical operator is the lexeme of the token after `group`, and it stops on DEDENT or EOF |
| ParseSpec.ParseChild | parser/parser.go:74-81 | a child is a nested group or a condition; any other token adds nothing |
| ParseSpec.NextChild | parser/parser.go:74-84 | each turn of the group loop consumes input and adds at most well-formed children |
| ParseSpec.GroupBody | parser/parser.go:74-85 | the children keep the ones collected so far and the group's logical operator |
| ParseSpec.ParseNext | parser/parser.go:110-129 | no statement exactly at EOF, and then nothing moves; a GROUP or IDENT gives a well-formed statement; any other token fails with UnexpectedToken |
| Parsing.Parser.constructor | parser/parser.go:31-35 | the struct literal of NewParser: the given lexer, and Go's zero token as currToken until the first nextToken |
| Parsing.Parser.New | parser/parser.go:31-35 | NewParser: the parser's state is the lexer's feed after its leading INDENTs, or the lexer's failure |
| Parsing.Parser.NextToken | parser/parser.go:102-108 | the new state is ParseSpec.SkipIndents of the lexer's feed |
| Parsing.Parser.ReadToken | parser/parser.go:102-108 | consumes the current token as ParseSpec.Advance does |
| Parsing.Parser.ParseCondition | parser/parser.go:37-62 | computes ParseSpec.ParseCondition on the parser's state |
| Parsing.Parser.ParseOperands | parser/parser.go:53-60 | computes ParseSpec.ParseOperands on the parser's state |
| Parsing.Parser.ParseRange | parser/parser.go:88-100 | computes ParseSpec.ParseRange on the parser's state |
| Parsing.Parser.ParseArray | parser/parser.go:131-150 | computes ParseSpec.ParseArray on the parser's state |
| Parsing.Parser.ArrayLoop | parser/parser.go:134-141 | the item loop computes ParseSpec.ArrayItems |
| Parsing.Parser.NextItem | parser/parser.go:135-140 | computes ParseSpec.NextItem on the parser's state |
| Parsing.Parser.ParseGroup | parser/parser.go:64-86 | computes ParseSpec.ParseGroup on the parser's state |
| Parsing.Parser.CollectChildren | parser/parser.go:74-85 | the child loop computes ParseSpec.GroupBody |
| Parsing.Parser.NextChild | parser/parser.go:74-84 | computes ParseSpec.NextChild on the parser's state |
| Parsing.Parser.ParseChild | parser/parser.go:75-81 | computes ParseSpec.ParseChild on the parser's state |
| Parsing.Parser.ParseNext | parser/parser.go:110-129 | computes ParseSpec.ParseNext on the parser's state |
| ParseFacts.AdvanceOne | parser/parser.go:102-108 | with no INDENT next, nextToken moves exactly one token |
| ParseFacts.PlainCondition | parser/parser.go:37-62 | `field op value` is a condition with that field, the operator's raw lexeme (whatever its token kind) and one operand |
| ParseFacts.NegatedCondition | parser/parser.go:41-62 | `field not op value` is a negated condition when the operator allows negation, and NegationNotSupported otherwise |
| ParseFacts.RangeOperands | parser/parser.go:88-100 | `between a and b` gives the two values, and anything but `and` in the middle fails |
| ParseFacts.AdvanceAt | parser/parser.go:102-108 | stepping a feed over a non-INDENT token moves one position |
| ParseFacts.ArrayOfItems | parser/parser.go:131-150 | an array up to its `]` collects exactly the values of its items in order, commas dropped |
| ParseFacts.ArrayItemsEnd | parser/parser.go:134 | the item loop stops on `]` |
| ParseFacts.ArrayItemsStep | parser/parser.go:134-141 | one turn of the item loop takes one value and an optional comma |
| ParseFacts.ItemAt | parser/parser.go:135-141 | one item, with or without the comma after it |
| ParseFacts.ItemThenComma | parser/parser.go:139-141 | an item followed by a comma contributes its value and skips the comma |
| ParseFacts.PlainItemsFrom | parser/parser.go:134-141 | items without commas contribute their values in order |
| ParseFacts.CommaItemsFrom | parser/parser.go:134-141 | items each followed by a comma contribute their values in order |
| ParseFacts.CommasOptional | parser/parser.go:134-141 | `[a b c]` and `[a, b, c,]` collect the same values: commas are optional separators |
| ParseFacts.ArrayLoopAsWritten | parser/parser.go:131-150 | the Go loop as written, with a fuel bound: when it finishes successfully it stands on `]` |
| ParseFacts.ArrayLoopNeverEndsAtEof | parser/parser.go:134-147 | at EOF the Go loop never finishes, whatever the fuel (see Findings) |
| ParseFacts.SkipIndentsSuffix | parser/parser.go:102-108 | the INDENT loop of nextToken only drops tokens from the front, and cannot fail once the lexer has reached EOF |
| ParseFacts.AdvanceSuffix | parser/parser.go:102-108 | nextToken leaves a suffix of the tokens, and cannot fail once the lexer has reached EOF |
| ParseFacts.NextItemSuffix | parser/parser.go:136-141 | one turn of the item loop leaves a suffix of the tokens, and cannot fail once the lexer has reached EOF |
| ParseFacts.ArrayItemsUnterminated | parser/parser.go:134-147 | on input with no `]` left, the corrected item loop fails with UnterminatedArray, however many items come first |
| ParseFacts.ArrayUnterminated | parser/parser.go:131-150 | parseArray on `[` with no `]` before the end of input fails with UnterminatedArray |
| ParseFacts.ArrayItemsAgrees | parser/parser.go:134-141 | wherever the Go loop finishes, the corrected loop gives the same result |
| ParseFacts.ConditionChild | parser/parser.go:74-84 | a plain condition inside a group is one child |
| ParseFacts.GroupStops | parser/parser.go:74 | DEDENT closes the group with the children collected so far |
| ParseFacts.GroupTakes | parser/parser.go:74-84 | a non-DEDENT token adds its children and the loop goes on |
| ParseFacts.GroupOpens | parser/parser.go:64-72 | `group and` / `group or` opens a body with that logical operator |
| ParseFacts.GroupChild | parser/parser.go:76-83 | a nested group is one child, and the token after its DEDENT comes next |
| ParseFacts.SuffixReady | parser/parser.go:102-108 | in a feed with no INDENT, every suffix is a ready parser state |
| ParseFacts.LastCondition | parser/parser.go:74-84 | a condition followed by DEDENT ends the group with it as the last child |
| ParseFacts.OneConditionGroup | parser/parser.go:64-85 | `group op` then one condition then DEDENT is a group of that one condition |
| ParseFacts.DedentClosesInnermost | parser/parser.go:64-85 | for every input, the DEDENT that ends a nested group closes that group only: the group is one well-formed child of its parent, the parent ends at the next token only if it is a second DEDENT, and otherwise its loop goes on there with the child appended |
| ParseFacts.GroupEndsOnDedent | parser/parser.go:74-85 | a nested group that is not at the end of the input ends on a DEDENT and is well formed |
| ParseFacts.GroupIsOneChild | parser/parser.go:76-84 | a nested group is appended to its parent's children as one child, and the parent's loop goes on at the token after its DEDENT |
| ParseFacts.FirstChildOfMany | parser/parser.go:74-84 | a nested group followed by a token other than DEDENT is the first child of its parent, whose loop goes on at that token |
| ParseFacts.SecondAndLastCondition | parser/parser.go:74-84 | after one child, a condition followed by DEDENT ends the group with exactly those two children |
| ParseFacts.GroupThenCondition | parser/parser.go:74-84 | after a nested group's DEDENT, the parent goes on to its next condition |
| ParseFacts.GroupStatement | parser/parser.go:116-128 | a top-level group statement is parsed, then one token is consumed |
| ParseFacts.OuterGroup | parser/parser.go:64-85 | in the nested sample, `group or` holds the inner `group and` and then the outer condition |
| ParseFacts.DedentClosesOneGroup | parser/parser.go:64-85 | an instance of ParseFacts.DedentClosesInnermost: the nested statement parses as `or(and(c1), c2)`, the first DEDENT closing `group and` and the second `group or` |
| Paths.WordLength | evaluator/evaluator.go:185-186 | the length of the `\w+` match at the head, which is maximal |
| Paths.IndexLength | evaluator/evaluator.go:185-186 | the length of the `\[\d+\]` match at the head, and zero exactly when there is none |
| Paths.Segments | evaluator/evaluator.go:185-186 | every segment found is a word or an index |
| Paths.Atoi | evaluator/evaluator.go:199-200 | the value of the digits, or the largest int64 when they overflow it |
| Paths.Step | evaluator/evaluator.go:189-212 | a map is looked up, and a missing key gives null; a list needs an index; anything else fails with InvalidFieldPath |
| Paths.IndexStep | evaluator/evaluator.go:193-209 | `[i]` picks item i of a list, or fails with IndexOutOfRange past its end |
| Paths.ResolveAppend | evaluator/evaluator.go:188-213 | following a path in two parts is following the first, then the second from where the first ended |
| Paths.WordThenRest | evaluator/evaluator.go:185-186 | a word ends where a non-word character follows |
| Paths.IndexThenRest | evaluator/evaluator.go:185-186 | an index ends at its closing bracket |
| Paths.SegmentsOfRender | evaluator/evaluator.go:185-186 | cutting the text of a path (`a.b[1].c`) gives back its segments |
| Paths.ResolveRendered | evaluator/evaluator.go:184-216 | a path written out from its segments resolves as the segments do |
| Paths.ResolveFieldValue | evaluator/evaluator.go:184-216 | the loop follows the segments from the context and stops at the first error |
| Evaluator.ApplyNegation | evaluator/evaluator.go:130-136 | the result is flipped exactly when negated |
| Evaluator.CompareNumeric | evaluator/evaluator.go:148-169 | fails exactly when either side is not a number; otherwise lt, gt, lte and gte are the orderings they name |
| Evaluator.EvaluateBetween | evaluator/evaluator.go:171-182 | an inclusive range; fewer than two operands fail; a non-number side fails |
| Evaluator.PrefixSuffixContained | evaluator/evaluator.go:61-83 | startsWith and endsWith each imply contains |
| Evaluator.TextTest | evaluator/evaluator.go:61-83 | a non-string field fails with NotAString; a non-string operand fails; on two strings, contains is substring containment, startsWith the prefix test and endsWith the suffix test, each XOR negate |
| Evaluator.ConditionFailures | evaluator/evaluator.go:46-89 | a condition fails exactly when its path does not resolve, it has no operand, a side has the wrong type, or its operator is unknown; the path error comes first, then MissingOperand, and an unknown operator fails with UnknownOperator naming it |
| Evaluator.NegationFlips | evaluator/evaluator.go:54-88 | `not` flips the result of every operator and leaves an error unchanged |
| Evaluator.NeqIsNotEq | evaluator/evaluator.go:57-60 | neq is eq negated; values of different kinds (null, boolean, number, string, list, map) are never eq, so a number never equals a string and a boolean never equals 1, and neq holds between them |
| Evaluator.OrderingDuality | evaluator/evaluator.go:148-169 | gt is lt with the sides swapped; lte is gt negated; gte is lt negated |
| Evaluator.BetweenIsTwoComparisons | evaluator/evaluator.go:171-182 | between low and high is gte low and lte high |
| Evaluator.ChildrenAllEvaluated | evaluator/evaluator.go:91-128 | a group succeeds exactly when every child does; no child is skipped |
| Evaluator.FirstErrorAborts | evaluator/evaluator.go:96-124 | a group's error is the error of its first failing child |
| Evaluator.AndIsConjunction | evaluator/evaluator.go:91-128 | once every child succeeds, "and" is the conjunction of the results |
| Evaluator.OrIsDisjunction | evaluator/evaluator.go:91-128 | once every child succeeds, any other operator is the disjunction of the results |
| Evaluator.GroupMeaning | evaluator/evaluator.go:91-128 | "and" is true when every child is, "or" when some child is, and an empty "or" is false |
| Evaluator.EvaluateIn | evaluator/evaluator.go:138-146 | the search loop returns membership of the field value, negated when asked |
| Evaluator.EvaluateCondition | evaluator/evaluator.go:46-89 | computes Evaluator.EvalCondition |
| Evaluator.EvaluateGroup | evaluator/evaluator.go:91-128 | the child loop computes the group's value |
| Logix.Statements | parser/parser.go:110-129 | every statement parsed up to EOF is well formed |
| Logix.AllTrueCons | evaluator/evaluator.go:12-44 | all statements are true exactly when the first is true and so are the rest |
| Logix.TrueMeansAllTrue | evaluator/evaluator.go:12-44 | a run is true exactly when the whole input parses and every statement is true |
| Logix.SampleReady | parser/parser.go:102-108 | `a eq 1` in front of any ready parser state is a ready parser state whose first three tokens are those of `a eq 1`, none an INDENT, with the given state after them |
| Logix.SampleCondition | parser/parser.go:37-62 | `a eq 1`, whatever tokens follow it, parses as the condition a eq 1, with the number token current |
| Logix.SampleFirstStatement | parser/parser.go:110-129 | the first statement of `a eq 1` followed by any tokens is that condition, and the following tokens come next |
| Logix.SampleFirstIsFalse | evaluator/evaluator.go:46-60 | `a eq 1` is false when a is 2 |
| Logix.StopsAtFirstNonTrue | evaluator/evaluator.go:12-44 | for all inputs: when a statement is false or fails, the run ends there with false or with that failure, and two inputs with the same first statement give the same verdict whatever follows it |
| Logix.Run | evaluator/evaluator.go:12-44 | a reference run over a list of statements: true exactly when every statement is true, and any failure is an evaluation failure |
| Logix.RunsParsedStatements | evaluator/evaluator.go:12-44 | when the whole input parses, the statement loop gives the reference run over the parsed statements |
| Logix.FalseHidesLaterErrors | evaluator/evaluator.go:12-44 | an instance of Logix.StopsAtFirstNonTrue: `a eq 1 ]` is false when a is 2, as `a eq 1` alone is, so the stray `]` is never reported, although parsing everything would fail |
| Logix.Evaluate | evaluator/evaluator.go:12-44 | the statement loop computes Logix.EvalProgram on the parser's state |
| Logix.EvaluateLogix | main.go:13-18 | builds a lexer on the text and a parser on the lexer, then runs Evaluate; the verdict is that of the rule text, whose meaning Logix.TrueMeansAllTrue states |

## Left out

- LoadContextFromFile (main.go:20-33) reads a file and decodes JSON. File I/O and JSON decoding are not modelled. The context is a `map<string, Val>`, where `Val` is null, a boolean, a number, a string, a list or a map.
- Numbers are exact: a NUMBER lexeme is always a run of digits, and its value is the rational it denotes. `strconv.ParseFloat` and float64 rounding are not modelled.
- ParseSpec.ParseValue: a NUMBER lexeme whose value is at least 2^1024 − 2^970 (a run of at least 309 significant digits) overflows float64. `strconv.ParseFloat` then returns a range error, and parseValue panics with "Invalid number literal" (parser.go:162-165). In the model such a literal parses to its exact value, and the condition, range or array holding it parses successfully. A digit run of smaller value never reaches that branch, since digits are always valid syntax for ParseFloat.
- The regular expression of resolveFieldValue is modelled by Paths.Segments, a left-to-right scanner for the two alternatives `\w+` and `\[\d+\]`. Go's regexp engine is not modelled.
- The input is treated as a sequence of bytes, one `char` each. `rune(l.input[i])` reads bytes in the Go code too. The whitespace run measured in setIndentationMode uses unicode.IsSpace on those byte values.
- The lexemes of STRING and ILLEGAL tokens are built in Go with `builder.WriteRune(l.ch)` (lexer.go:157) and `string(l.ch)` (lexer.go:145). A byte of 0x80 or above is then re-encoded as two UTF-8 bytes. The model keeps one `char` per byte, so the characters of those lexemes stand for the runes of the Go lexeme, not for its bytes.
- Error messages are not modelled: `fmt.Sprintf` / `fmt.Errorf` text becomes a datatype constructor holding the offending token, operator or segment.
- Go panics become failures:
  - the setIndentationMode overrun at the end of input (LexError.IndentScanOverrun);
  - the parser panics (ParseError);
  - indexing an empty operand list in evaluateCondition and evaluateBetween (EvalError.MissingOperand);
  - the `.(string)` assertion on a text operand (EvalError.OperandNotString).
- Comparing two uncomparable Go values with `==` would panic. Operands are always scalars, so the panic cannot arise, and `eq`/`in` are modelled as equality of values.
- The `default` branch of Evaluate (evaluator.go:38-39) cannot be reached, because ParseNext only yields conditions and groups. The model has no such case.
- Paths.Step: when an index overflows int64, Go reports "array index out of range". The model does the same for any list of at most MaxInt64 items. Longer lists cannot exist in Go, and Paths.IndexStep requires that bound.
- An inconsistent dedent is modelled as written. A line whose level falls between two stack entries pops down to the next lower entry with no error. The stack then holds that lower entry and not the new level, as LexSpec.Indentation states.
- The `peekToken` field of the Go Parser is never used, so it is not modelled.
- ParseFacts.OuterGroup and ParseFacts.DedentClosesOneGroup are stated for a nested sample with its INDENTs already dropped (ParseFacts.NestedShape). The general rule they instantiate is ParseFacts.DedentClosesInnermost. The INDENT-skipping itself is stated by ParseSpec.SkipIndentsDropsIndents.
- ParseFacts.ArrayLoopAsWritten: the Go loop can run forever, so it is modelled with a fuel bound. A result of `Running` means the fuel ran out. The model does not distinguish a long loop from an endless one except at EOF, where ArrayLoopNeverEndsAtEof proves that it never ends.
- The operator of a condition is not checked by the parser: any token's lexeme is taken (parser.go:47). An unknown operator fails only when it is evaluated (evaluator.go:84-86). The model follows the code here.

## Findings

| source | as written | input that shows it | evidently intended | confidence | as-written member | corrected member |
|---|---|---|---|---|---|---|
| parser/parser.go:134-147 | the loop of parseArray stops only on `]`; at EOF nextToken keeps returning EOF, so the loop never ends (appending null values), and the check for a missing `]` after the loop is dead code | `x in [1, 2` | fail with "Expected ']' to close array" | not executed | ParseFacts.ArrayLoopAsWritten (ParseFacts.ArrayLoopNeverEndsAtEof) | ParseSpec.ArrayItems (ParseFacts.ArrayUnterminated: `[` with no `]` before the end of input fails with UnterminatedArray; ParseFacts.ArrayItemsAgrees shows it agrees wherever the Go loop ends) |

=== FILE: ast.dfy ===
/**
 * The values and the tree of parser/parser.go. A Val is what a rule operand
 * or a context entry can be: the scalars parseValue produces, and the maps and
 * lists a JSON context adds. A Node is a parsed statement.
 */
module Ast {
  datatype Val =
    | VNull
    | VBool(b: bool)
    | VNum(n: real)
    | VStr(s: string)
    | VList(items: seq<Val>)
    | VMap(entries: map<string, Val>)
  {
    /** What parseValue can produce: no list and no map. */
    predicate IsScalar() {
      !VList? && !VMap?
    }
  }

  /** Condition {Field, Operator, Value, Negate} and Group {LogicalOp, Children}. */
  datatype Node =
    | Cond(field: string, op: string, operands: seq<Val>, negate: bool)
    | Grp(logicalOp: string, children: seq<Node>)

  /** allowedNegateSuffix: the operators `not` may precede. */
  predicate AllowedNegateSuffix(op: string) {
    op == "in" || op == "contains" || op == "between" || op == "startsWith" || op == "endsWith"
  }

  predicate AllScalar(vs: seq<Val>) {
    forall i :: 0 <= i < |vs| ==> vs[i].IsScalar()
  }

  lemma AllScalarAppend(vs: seq<Val>, v: Val)
    requires AllScalar(vs) && v.IsScalar()
    ensures AllScalar(vs + [v])
  {
    forall i | 0 <= i < |vs + [v]| ensures (vs + [v])[i].IsScalar() {
      if i < |vs| { assert (vs + [v])[i] == vs[i]; }
    }
  }

  /**
   * What the parser guarantees of every tree it builds: negation only before
   * an allowed operator, two operands for `between`, scalar operands only, and
   * groups joined by "and" or "or".
   */
  predicate WellFormed(n: Node) {
    match n
    case Cond(_, op, operands, negate) =>
      && (negate ==> AllowedNegateSuffix(op))
      && (op == "between" ==> |operands| == 2)
      && AllScalar(operands)
    case Grp(logicalOp, children) =>
      && (logicalOp == "and" || logicalOp == "or")
      && forall i :: 0 <= i < |children| ==> WellFormed(children[i])
  }
}

=== FILE: evaluator.dfy ===
/**
 * The evaluator of evaluator/evaluator.go: a parsed statement is checked
 * against a context. The functions say what each step computes; the methods
 * are the Go loops, each proved to compute its function. A Go panic is an
 * EvalError here.
 */
module Evaluator {
  import opened Wrappers
  import opened Ast
  import opened Paths

  datatype EvalError =
    | PathFailure(cause: PathError)    // resolveFieldValue failed
    | MissingOperand                   // cond.Value[0] or values[1] past the end: a Go panic
    | InvalidNumericTypes              // compareNumeric on a field or operand that is not a number
    | InvalidBetweenTypes              // evaluateBetween on a field or bound that is not a number
    | NotAString(op: string)           // contains, startsWith, endsWith on a field that is not a string
    | OperandNotString(op: string)     // conditionValue.(string) on another operand: a Go panic
    | UnknownOperator(op: string)

  /** applyNegation. */
  function ApplyNegation(result: bool, negate: bool): (r: bool)
    ensures r == (result != negate)
  {
    if negate then !result else result
  }

  predicate IsOrdering(op: string) {
    op == "lt" || op == "gt" || op == "lte" || op == "gte"
  }

  /** compareNumeric: both sides must be numbers; then the ordering the operator names. */
  function CompareNumeric(fieldValue: Val, conditionValue: Val, op: string, negate: bool): (r: Result<bool, EvalError>)
    ensures r.Failure? <==> !fieldValue.VNum? || !conditionValue.VNum?
    ensures r.Failure? ==> r.error == InvalidNumericTypes
    ensures r.Success? && op == "lt" ==> r.value == ((fieldValue.n < conditionValue.n) != negate)
    ensures r.Success? && op == "gt" ==> r.value == ((fieldValue.n > conditionValue.n) != negate)
    ensures r.Success? && op == "lte" ==> r.value == ((fieldValue.n <= conditionValue.n) != negate)
    ensures r.Success? && op == "gte" ==> r.value == ((fieldValue.n >= conditionValue.n) != negate)
  {
    if !fieldValue.VNum? || !conditionValue.VNum? then
      Failure(InvalidNumericTypes)
    else
      var f, c := fieldValue.n, conditionValue.n;
      var result :=
        if op == "lt" then f < c
        else if op == "gt" then f > c
        else if op == "lte" then f <= c
        else if op == "gte" then f >= c
        else false;
      Success(ApplyNegation(result, negate))
  }

  /** evaluateBetween: an inclusive range; field and both bounds must be numbers. */
  function EvaluateBetween(fieldValue: Val, values: seq<Val>, negate: bool): (r: Result<bool, EvalError>)
    ensures |values| < 2 ==> r == Failure(MissingOperand)
    ensures |values| >= 2 ==>
      (r.Failure? <==> !fieldValue.VNum? || !values[0].VNum? || !values[1].VNum?)
    ensures r.Failure? && |values| >= 2 ==> r.error == InvalidBetweenTypes
    ensures r.Success? ==> r.value == ((values[0].n <= fieldValue.n <= values[1].n) != negate)
  {
    if |values| < 2 then
      Failure(MissingOperand)
    else if !fieldValue.VNum? || !values[0].VNum? || !values[1].VNum? then
      Failure(InvalidBetweenTypes)
    else
      var f := fieldValue.n;
      Success(ApplyNegation(f >= values[0].n && f <= values[1].n, negate))
  }

  /** sub occurs in s from position i. */
  predicate OccursAt(s: string, sub: string, i: int) {
    0 <= i <= |s| - |sub| && s[i..i + |sub|] == sub
  }

  /** strings.Contains. */
  predicate Contains(s: string, sub: string) {
    exists i | 0 <= i <= |s| - |sub| :: OccursAt(s, sub, i)
  }

  /** strings.HasPrefix. */
  predicate HasPrefix(s: string, prefix: string) {
    |prefix| <= |s| && s[..|prefix|] == prefix
  }

  /** strings.HasSuffix. */
  predicate HasSuffix(s: string, suffix: string) {
    |suffix| <= |s| && s[|s| - |suffix|..] == suffix
  }

  /** A prefix or a suffix is contained in the string. */
  lemma PrefixSuffixContained(s: string, t: string)
    ensures HasPrefix(s, t) ==> Contains(s, t)
    ensures HasSuffix(s, t) ==> Contains(s, t)
  {
    if HasPrefix(s, t) {
      assert OccursAt(s, t, 0);
    }
    if HasSuffix(s, t) {
      assert OccursAt(s, t, |s| - |t|);
    }
  }

  predicate IsTextTest(op: string) {
    op == "contains" || op == "startsWith" || op == "endsWith"
  }

  /** contains, startsWith, endsWith: the field must be a string, and so must the operand. */
  function TextTest(op: string, fieldValue: Val, conditionValue: Val, negate: bool): (r: Result<bool, EvalError>)
    requires IsTextTest(op)
    ensures !fieldValue.VStr? ==> r == Failure(NotAString(op))
    ensures fieldValue.VStr? && !conditionValue.VStr? ==> r == Failure(OperandNotString(op))
    ensures fieldValue.VStr? && conditionValue.VStr? && op == "contains" ==>
      r == Success(Contains(fieldValue.s, conditionValue.s) != negate)
    ensures fieldValue.VStr? && conditionValue.VStr? && op == "startsWith" ==>
      r == Success(HasPrefix(fieldValue.s, conditionValue.s) != negate)
    ensures fieldValue.VStr? && conditionValue.VStr? && op == "endsWith" ==>
      r == Success(HasSuffix(fieldValue.s, conditionValue.s) != negate)
  {
    if !fieldValue.VStr? then
      Failure(NotAString(op))
    else if !conditionValue.VStr? then
      Failure(OperandNotString(op))
    else
      var s, t := fieldValue.s, conditionValue.s;
      var result :=
        if op == "contains" then Contains(s, t)
        else if op == "startsWith" then HasPrefix(s, t)
        else HasSuffix(s, t);
      Success(ApplyNegation(result, negate))
  }

  /** The switch of evaluateCondition, once the field is resolved and the first operand exists. */
  function Apply(op: string, fieldValue: Val, operands: seq<Val>, negate: bool): (r: Result<bool, EvalError>)
    requires |operands| > 0
  {
    var conditionValue := operands[0];
    if IsOrdering(op) then CompareNumeric(fieldValue, conditionValue, op, negate)
    else if op == "eq" then Success(ApplyNegation(fieldValue == conditionValue, negate))
    else if op == "neq" then Success(ApplyNegation(fieldValue != conditionValue, negate))
    else if IsTextTest(op) then TextTest(op, fieldValue, conditionValue, negate)
    else if op == "between" then EvaluateBetween(fieldValue, operands, negate)
    else if op == "in" then Success(ApplyNegation(fieldValue in operands, negate))
    else Failure(UnknownOperator(op))
  }

  /**
   * evaluateCondition: resolve the field first, then take the first operand
   * (whatever the operator), then apply the operator.
   */
  function EvalCondition(cond: Node, context: Val): (r: Result<bool, EvalError>)
    requires cond.Cond?
  {
    match ResolveField(cond.field, context)
    case Failure(e) => Failure(PathFailure(e))
    case Success(fieldValue) =>
      if |cond.operands| == 0 then Failure(MissingOperand)
      else Apply(cond.op, fieldValue, cond.operands, cond.negate)
  }

  /** One step of the fold of evaluateGroup: `&&` for "and", `||` for anything else. */
  function Combine(op: string, acc: bool, b: bool): bool {
    if op == "and" then acc && b else acc || b
  }

  /** A statement: a condition, or a group folded over all its children. */
  function EvalNode(n: Node, context: Val): Result<bool, EvalError>
    decreases n, 1
  {
    match n
    case Cond(_, _, _, _) => EvalCondition(n, context)
    case Grp(op, children) => EvalChildren(op, children, context, op == "and")
  }

  /** The loop of evaluateGroup from acc on: every child is evaluated, the first error aborts. */
  function EvalChildren(op: string, children: seq<Node>, context: Val, acc: bool): Result<bool, EvalError>
    decreases children, 0
  {
    if children == [] then Success(acc)
    else
      var b :- EvalNode(children[0], context);
      EvalChildren(op, children[1..], context, Combine(op, acc, b))
  }

  /** The operators evaluateCondition knows. */
  predicate KnownOperator(op: string) {
    IsOrdering(op) || op == "eq" || op == "neq" || IsTextTest(op) || op == "between" || op == "in"
  }

  /**
   * When a condition fails: its field does not resolve, it has no operand, a
   * side has the wrong type for its operator, or the operator is unknown.
   */
  lemma ConditionFailures(cond: Node, context: Val)
    requires cond.Cond?
    ensures var f := ResolveField(cond.field, context);
      var vs := cond.operands;
      EvalCondition(cond, context).Failure? <==>
        || f.Failure?
        || |vs| == 0
        || (IsOrdering(cond.op) && (!f.value.VNum? || !vs[0].VNum?))
        || (IsTextTest(cond.op) && (!f.value.VStr? || !vs[0].VStr?))
        || (cond.op == "between" && (|vs| < 2 || !f.value.VNum? || !vs[0].VNum? || !vs[1].VNum?))
        || !KnownOperator(cond.op)
    ensures ResolveField(cond.field, context).Failure? ==>
      EvalCondition(cond, context) == Failure(PathFailure(ResolveField(cond.field, context).error))
    ensures ResolveField(cond.field, context).Success? && |cond.operands| == 0 ==>
      EvalCondition(cond, context) == Failure(MissingOperand)
    ensures ResolveField(cond.field, context).Success? && |cond.operands| > 0 && !KnownOperator(cond.op) ==>
      EvalCondition(cond, context) == Failure(UnknownOperator(cond.op))
  {
  }

  /** A result with its value flipped; an error as it is. */
  function Flipped(r: Result<bool, EvalError>): Result<bool, EvalError> {
    match r
    case Success(b) => Success(!b)
    case Failure(e) => Failure(e)
  }

  /** `not` flips a result and leaves an error as it is. */
  lemma NegationFlips(cond: Node, context: Val)
    requires cond.Cond?
    ensures EvalCondition(cond.(negate := !cond.negate), context) == Flipped(EvalCondition(cond, context))
  {
    var flipped := cond.(negate := !cond.negate);
    assert flipped.field == cond.field && flipped.operands == cond.operands && flipped.op == cond.op;
    if ResolveField(cond.field, context).Success? && |cond.operands| > 0 {
      var f := ResolveField(cond.field, context).value;
      var op, vs, n := cond.op, cond.operands, cond.negate;
      if IsOrdering(op) {
        assert Apply(op, f, vs, !n) == Flipped(Apply(op, f, vs, n));
      } else if IsTextTest(op) {
        assert Apply(op, f, vs, !n) == Flipped(Apply(op, f, vs, n));
      } else {
        assert Apply(op, f, vs, !n) == Flipped(Apply(op, f, vs, n));
      }
    }
  }

  /** Two values of the same kind: both null, both booleans, both numbers, both strings, both lists or both maps. */
  predicate SameKind(a: Val, b: Val) {
    || (a.VNull? && b.VNull?)
    || (a.VBool? && b.VBool?)
    || (a.VNum? && b.VNum?)
    || (a.VStr? && b.VStr?)
    || (a.VList? && b.VList?)
    || (a.VMap? && b.VMap?)
  }

  /**
   * neq is eq negated; values of different kinds are never eq, whatever they
   * hold (a number is not the string of its digits, a boolean is not 1, null
   * is only null), and then neq holds.
   */
  lemma NeqIsNotEq(fieldValue: Val, operands: seq<Val>, negate: bool)
    requires |operands| > 0
    ensures Apply("neq", fieldValue, operands, negate) == Apply("eq", fieldValue, operands, !negate)
    ensures fieldValue.VNum? && operands[0].VStr? ==> Apply("eq", fieldValue, operands, negate) == Success(negate)
    ensures !SameKind(fieldValue, operands[0]) ==> Apply("eq", fieldValue, operands, negate) == Success(negate)
    ensures !SameKind(fieldValue, operands[0]) ==> Apply("neq", fieldValue, operands, negate) == Success(!negate)
  {
  }

  /** gt is lt with the sides swapped, and lte and gte are gt and lt negated. */
  lemma OrderingDuality(a: Val, b: Val, negate: bool)
    ensures CompareNumeric(a, b, "gt", negate) == CompareNumeric(b, a, "lt", negate)
    ensures CompareNumeric(a, b, "lte", negate) == CompareNumeric(a, b, "gt", !negate)
    ensures CompareNumeric(a, b, "gte", negate) == CompareNumeric(a, b, "lt", !negate)
  {
  }

  /** between low high is gte low and lte high. */
  lemma BetweenIsTwoComparisons(fieldValue: Val, values: seq<Val>, negate: bool)
    requires |values| >= 2 && fieldValue.VNum? && values[0].VNum? && values[1].VNum?
    ensures EvaluateBetween(fieldValue, values, negate) ==
      Success(ApplyNegation(
        CompareNumeric(fieldValue, values[0], "gte", false).value &&
        CompareNumeric(fieldValue, values[1], "lte", false).value, negate))
  {
  }

  /** A group succeeds exactly when every child does: no child is skipped, whatever the values so far. */
  lemma {:induction false} ChildrenAllEvaluated(op: string, children: seq<Node>, context: Val, acc: bool)
    ensures EvalChildren(op, children, context, acc).Success? <==>
      forall k :: 0 <= k < |children| ==> EvalNode(children[k], context).Success?
    decreases |children|
  {
    if children != [] {
      assert forall k :: 1 <= k < |children| ==> children[1..][k - 1] == children[k];
      match EvalNode(children[0], context)
      case Failure(_) =>
      case Success(b) => ChildrenAllEvaluated(op, children[1..], context, Combine(op, acc, b));
    }
  }

  /** The error of a group is that of its first failing child. */
  lemma {:induction false} FirstErrorAborts(op: string, children: seq<Node>, context: Val, acc: bool)
    requires EvalChildren(op, children, context, acc).Failure?
    ensures exists k ::
      && 0 <= k < |children|
      && EvalNode(children[k], context) == Failure(EvalChildren(op, children, context, acc).error)
      && forall j :: 0 <= j < k ==> EvalNode(children[j], context).Success?
    decreases |children|
  {
    var e := EvalChildren(op, children, context, acc).error;
    match EvalNode(children[0], context)
    case Failure(_) =>
      assert EvalNode(children[0], context) == Failure(e);
    case Success(b) =>
      var tail := children[1..];
      FirstErrorAborts(op, tail, context, Combine(op, acc, b));
      var k :|
        && 0 <= k < |tail|
        && EvalNode(tail[k], context) == Failure(e)
        && forall j :: 0 <= j < k ==> EvalNode(tail[j], context).Success?;
      assert forall j :: 1 <= j < k + 1 ==> children[j] == tail[j - 1];
      assert EvalNode(children[k + 1], context) == Failure(e);
  }

  /** Once every child succeeds, "and" is the conjunction of their results and of acc. */
  lemma {:induction false} AndIsConjunction(children: seq<Node>, context: Val, acc: bool)
    requires forall k :: 0 <= k < |children| ==> EvalNode(children[k], context).Success?
    ensures EvalChildren("and", children, context, acc) ==
      Success(acc && forall k :: 0 <= k < |children| ==> EvalNode(children[k], context).value)
    decreases |children|
  {
    if children != [] {
      var tail := children[1..];
      assert forall k :: 1 <= k < |children| ==> children[k] == tail[k - 1];
      var b := EvalNode(children[0], context).value;
      AndIsConjunction(tail, context, acc && b);
    }
  }

  /** Once every child succeeds, any other operator is the disjunction of their results and of acc. */
  lemma {:induction false} OrIsDisjunction(op: string, children: seq<Node>, context: Val, acc: bool)
    requires op != "and"
    requires forall k :: 0 <= k < |children| ==> EvalNode(children[k], context).Success?
    ensures EvalChildren(op, children, context, acc) ==
      Success(acc || exists k :: 0 <= k < |children| && EvalNode(children[k], context).value)
    decreases |children|
  {
    if children != [] {
      var tail := children[1..];
      assert forall k :: 1 <= k < |children| ==> children[k] == tail[k - 1];
      var b := EvalNode(children[0], context).value;
      OrIsDisjunction(op, tail, context, acc || b);
    }
  }

  /**
   * A group: it fails exactly when a child fails; otherwise "and" is true when
   * every child is, and "or" when some child is (an empty "or" is false).
   */
  lemma GroupMeaning(group: Node, context: Val)
    requires group.Grp?
    ensures EvalNode(group, context).Success? <==>
      forall k :: 0 <= k < |group.children| ==> EvalNode(group.children[k], context).Success?
    ensures EvalNode(group, context).Success? && group.logicalOp == "and" ==>
      EvalNode(group, context).value == forall k :: 0 <= k < |group.children| ==> EvalNode(group.children[k], context).value
    ensures EvalNode(group, context).Success? && group.logicalOp != "and" ==>
      EvalNode(group, context).value == exists k :: 0 <= k < |group.children| && EvalNode(group.children[k], context).value
  {
    var op, children := group.logicalOp, group.children;
    ChildrenAllEvaluated(op, children, context, op == "and");
    if EvalNode(group, context).Success? {
      if op == "and" {
        AndIsConjunction(children, context, true);
      } else {
        OrIsDisjunction(op, children, context, false);
      }
    }
  }

  /** evaluateIn: the operands searched one by one for the field value. */
  method EvaluateIn(fieldValue: Val, values: seq<Val>, negate: bool) returns (r: bool)
    ensures r == ApplyNegation(fieldValue in values, negate)
  {
    for i := 0 to |values|
      invariant fieldValue !in values[..i]
    {
      if fieldValue == values[i] {
        return ApplyNegation(true, negate);
      }
      assert values[..i + 1] == values[..i] + [values[i]];
    }
    assert values[..|values|] == values;
    return ApplyNegation(false, negate);
  }

  /** evaluateCondition, with the path followed and `in` searched by their loops. */
  method EvaluateCondition(cond: Node, context: Val) returns (r: Result<bool, EvalError>)
    requires cond.Cond?
    ensures r == EvalCondition(cond, context)
  {
    var fieldValue := ResolveFieldValue(cond.field, context);
    if fieldValue.Failure? {
      return Failure(PathFailure(fieldValue.error));
    }
    if |cond.operands| == 0 {
      return Failure(MissingOperand);
    }
    if cond.op == "in" {
      var b := EvaluateIn(fieldValue.value, cond.operands, cond.negate);
      return Success(b);
    }
    return Apply(cond.op, fieldValue.value, cond.operands, cond.negate);
  }

  /** evaluateGroup: every child in turn, folded from true for "and" and from false otherwise. */
  method EvaluateGroup(group: Node, context: Val) returns (r: Result<bool, EvalError>)
    requires group.Grp?
    ensures r == EvalNode(group, context)
    decreases group
  {
    var op, children := group.logicalOp, group.children;
    var result := op == "and";
    for k := 0 to |children|
      invariant EvalNode(group, context) == EvalChildren(op, children[k..], context, result)
    {
      var child := children[k];
      assert children[k..][0] == child && children[k..][1..] == children[k + 1..];
      var b;
      if child.Cond? {
        b := EvaluateCondition(child, context);
      } else {
        b := EvaluateGroup(child, context);
      }
      if b.Failure? {
        return Failure(b.error);
      }
      result := Combine(op, result, b.value);
    }
    return Success(result);
  }
}

=== FILE: lexer.dfy ===
/**
 * The Lexer of lexer/lexer.go: a cursor over the input with the indentation
 * state, updated in place. Every method is proved to do what the functions of
 * LexSpec say about the lexer's state, so `Next` here hands out exactly the
 * tokens of LexSpec.Next.
 */
module Lexing {
  import opened Wrappers
  import opened Tokens
  import opened LexSpec

  class Lexer {
    const input: string
    var position: nat       // index of ch
    var readPosition: nat   // index of the next character
    var ch: char            // the character under the cursor, NUL past the end
    var indentWidth: int    // spaces per level; 1 for tabs; -1 until detected
    var useSpaces: bool
    var indentStack: seq<nat>
    var dedentCount: nat    // DEDENT tokens still to hand out

    /** The lexer's fields as a LexSpec state. */
    function State(): LexState
      reads this
    {
      LexState(input, position, indentWidth, useSpaces, indentStack, dedentCount)
    }

    ghost predicate Valid()
      reads this
    {
      readPosition == position + 1 && ch == CharAt(input, position) && State().Valid()
    }

    /** NewLexer. */
    constructor (input: string)
      ensures Valid() && State() == Init(input)
    {
      this.input := input;
      position, readPosition, ch := 0, 0, NUL;
      indentWidth, useSpaces := -1, false;
      indentStack, dedentCount := [0], 0;
      new;
      ReadRune();
    }

    /** readRune: move the cursor one character on; past the end ch is NUL. */
    method ReadRune()
      requires readPosition <= |input|
      modifies this`position, this`readPosition, this`ch
      ensures position == old(readPosition) && readPosition == old(readPosition) + 1
      ensures ch == CharAt(input, old(readPosition))
    {
      if readPosition >= |input| {
        ch := NUL;
      } else {
        ch := input[readPosition];
      }
      position := readPosition;
      readPosition := readPosition + 1;
    }

    /** peek: the character after the cursor, NUL past the end. */
    function Peek(): (c: char)
      reads this
      requires Valid()
      ensures c == State().Peek()
    {
      if readPosition >= |input| then NUL else input[readPosition]
    }

    /** setIndentationMode; false where the Go program indexes past the end of its input. */
    method SetIndentationMode() returns (ok: bool)
      requires Valid()
      modifies this`indentWidth, this`useSpaces
      ensures Valid()
      ensures DetectMode(old(State())) == if ok then Success(State()) else Failure(IndentScanOverrun)
    {
      var isIndent := ch == '\n' && Peek() != NUL && (Peek() == ' ' || Peek() == '\t');
      if indentWidth != -1 || !isIndent {
        return true;
      }
      if input[readPosition] == '\t' {
        useSpaces := false;
        indentWidth := 1;
      } else {
        var i := 0;
        var pos := readPosition;
        while true
          invariant readPosition <= pos <= |input| && pos == readPosition + i
          invariant forall k :: readPosition <= k < pos ==> !EndOfSpaceRun(input[k])
          decreases |input| - pos
        {
          if pos == |input| {
            // Go reads input[pos] here and panics.
            UntilIsFirst(input, readPosition, EndOfSpaceRun, pos);
            return false;
          }
          if IsSpace(input[pos]) {
            i := i + 1;
            pos := pos + 1;
          } else {
            break;
          }
        }
        UntilIsFirst(input, readPosition, EndOfSpaceRun, pos);
        useSpaces := true;
        indentWidth := i;
      }
      return true;
    }

    /** readIndentLevel: consume the indentation after the newline and return its level. */
    method ReadIndentLevel() returns (level: nat)
      requires Valid() && ch == '\n'
      modifies this`position, this`readPosition, this`ch
      ensures Valid()
      ensures position == old(position) + IndentCount(old(State()))
      ensures level == IndentLevel(old(State()))
    {
      var indentCount := 0;
      var c := if useSpaces then ' ' else '\t';
      ghost var stop := if useSpaces then EndOfSpaces else EndOfTabs;
      ghost var p0 := position + 1;
      while Peek() == c
        invariant Valid() && position < |input| && position == old(position) + indentCount
        invariant stop == if useSpaces then EndOfSpaces else EndOfTabs
        invariant forall k :: p0 <= k < position + 1 ==> !stop(input[k])
        decreases |input| - position
      {
        indentCount := indentCount + 1;
        ReadRune();
      }
      UntilIsFirst(input, p0, stop, position + 1);
      if useSpaces {
        return indentCount / indentWidth;
      }
      return indentCount;
    }

    /** skipWhitespace: move past spaces, tabs, newlines and carriage returns. */
    method SkipWhitespace()
      requires Valid()
      modifies this`position, this`readPosition, this`ch
      ensures Valid() && position == Until(input, old(position), EndOfBlanks)
    {
      ghost var p0 := position;
      while ch == ' ' || ch == '\t' || ch == '\n' || ch == '\r'
        invariant Valid() && p0 <= position
        invariant forall k :: p0 <= k < position ==> !EndOfBlanks(input[k])
        decreases |input| - position
      {
        ReadRune();
      }
      UntilIsFirst(input, p0, EndOfBlanks, position);
    }

    /** The comment loop of Next: move up to the end of the line. */
    method SkipComment()
      requires Valid()
      modifies this`position, this`readPosition, this`ch
      ensures Valid() && position == Until(input, old(position), EndOfComment)
    {
      ghost var p0 := position;
      while ch != '\n' && ch != NUL
        invariant Valid() && p0 <= position
        invariant forall k :: p0 <= k < position ==> !EndOfComment(input[k])
        decreases |input| - position
      {
        ReadRune();
      }
      UntilIsFirst(input, p0, EndOfComment, position);
    }

    /** readStringToken: the cursor is on the opening quote. */
    method ReadStringToken() returns (t: Token)
      requires Valid() && ch == '"'
      modifies this`position, this`readPosition, this`ch
      ensures Valid() && (t, State()) == ScanString(old(State()))
    {
      ghost var s0 := State();
      ReadRune();
      var builder := ReadStringBody();
      ScanStringEnds(s0, position);
      if ch == '"' {
        ReadRune();
        return Token(Str, builder);
      }
      return Token(Illegal, "Unclosed string");
    }

    /** The loop of readStringToken: the characters up to the closing quote or the end of input. */
    method ReadStringBody() returns (builder: string)
      requires Valid()
      modifies this`position, this`readPosition, this`ch
      ensures Valid() && position == Until(input, old(position), EndOfString)
      ensures builder == input[old(position)..position]
    {
      ghost var p0 := position;
      builder := "";
      while ch != '"' && ch != NUL
        invariant Valid() && p0 <= position && builder == input[p0..position]
        invariant forall k :: p0 <= k < position ==> !EndOfString(input[k])
        decreases |input| - position
      {
        assert input[p0..position + 1] == input[p0..position] + [ch];
        builder := builder + [ch];
        ReadRune();
      }
      UntilIsFirst(input, p0, EndOfString, position);
    }

    /** readLexeme: the maximal run of identifier characters from the cursor. */
    method ReadLexeme() returns (lexeme: string)
      requires Valid()
      modifies this`position, this`readPosition, this`ch
      ensures Valid() && position == Until(input, old(position), EndOfIdent)
      ensures lexeme == input[old(position)..position]
    {
      var start := position;
      while IsAlphaNumeric(ch) || ch == '.' || ch == '[' || ch == ']'
        invariant Valid() && start <= position
        invariant forall k :: start <= k < position ==> !EndOfIdent(input[k])
        decreases |input| - position
      {
        ReadRune();
      }
      UntilIsFirst(input, start, EndOfIdent, position);
      lexeme := input[start..position];
    }

    /** readNumber: the maximal run of digits from the cursor. */
    method ReadNumber() returns (lexeme: string)
      requires Valid()
      modifies this`position, this`readPosition, this`ch
      ensures Valid() && position == Until(input, old(position), EndOfNumber)
      ensures lexeme == input[old(position)..position]
    {
      var start := position;
      while IsDigit(ch)
        invariant Valid() && start <= position
        invariant forall k :: start <= k < position ==> !EndOfNumber(input[k])
        decreases |input| - position
      {
        ReadRune();
      }
      UntilIsFirst(input, start, EndOfNumber, position);
      lexeme := input[start..position];
    }

    /** The token-scanning tail of Next, with the cursor on a non-blank character. */
    method ScanToken() returns (t: Token)
      requires Valid()
      modifies this`position, this`readPosition, this`ch
      ensures Valid() && (t, State()) == Scan(old(State()))
    {
      if ch == '"' {
        t := ReadStringToken();
      } else if ch == '[' {
        ReadRune();
        t := Token(LSquare, "[");
      } else if ch == ']' {
        ReadRune();
        t := Token(RSquare, "]");
      } else if ch == ',' {
        ReadRune();
        t := Token(Comma, ",");
      } else if IsAlpha(ch) {
        var lexeme := ReadLexeme();
        t := Token(LookupKeyword(lexeme), lexeme);
      } else if IsDigit(ch) {
        var lexeme := ReadNumber();
        t := Token(Number, lexeme);
      } else if ch == NUL {
        t := Token(Eof, "");
      } else {
        t := Token(Illegal, [ch]);
        ReadRune();
      }
    }

    /** The stack-pop loop of Next (lexer.go:106-109), counting one pending DEDENT per entry popped. */
    method PopIndents(level: nat)
      requires Valid() && dedentCount == 0
      modifies this`indentStack, this`dedentCount
      ensures Valid()
      ensures indentStack == PopAbove(old(indentStack), level)
      ensures dedentCount == |old(indentStack)| - |indentStack|
    {
      while level < indentStack[|indentStack| - 1]
        invariant Valid() && PopAbove(indentStack, level) == PopAbove(old(indentStack), level)
        invariant |indentStack| <= |old(indentStack)|
        invariant dedentCount == |old(indentStack)| - |indentStack|
        decreases |indentStack|
      {
        indentStack := indentStack[..|indentStack| - 1];
        dedentCount := dedentCount + 1;
      }
    }

    /** The indentation branch of Next (lexer.go:94-115), on a newline with no DEDENT pending. */
    method Indentation() returns (t: Option<Token>)
      requires Valid() && dedentCount == 0 && ch == '\n'
      requires indentWidth == -1 ==> !(Peek() == ' ' || Peek() == '\t')
      modifies this`position, this`readPosition, this`ch, this`indentStack, this`dedentCount
      ensures Valid() && (t, State()) == LexSpec.Indentation(old(State()))
    {
      ghost var s := State();
      var indentLevel := ReadIndentLevel();
      ghost var s2 := s.(position := position);
      assert State() == s2;
      var top := indentStack[|indentStack| - 1];
      assert indentLevel == IndentLevel(s) && top == s.Top();
      if indentLevel > top {
        indentStack := indentStack + [indentLevel];
        t := Some(Token(Indent, ""));
        assert State() == s2.(indentStack := s.indentStack + [indentLevel]);
      } else if indentLevel < top {
        PopIndents(indentLevel);
        dedentCount := dedentCount - 1;
        t := Some(Token(Dedent, ""));
        assert State() == s2.(indentStack := PopAbove(s.indentStack, indentLevel), dedentCount := dedentCount);
      } else {
        t := None;
        assert LexSpec.Indentation(s) == (None, s2);
      }
    }

    /** Next: the next token, or the error where the Go program panics. */
    method Next() returns (r: Result<Token, LexError>)
      requires Valid()
      modifies this
      ensures Valid()
      ensures LexSpec.Next(old(State())) == if r.Success? then Success((r.value, State())) else Failure(r.error)
      decreases |input| - position, 2
    {
      ghost var s := State();
      var ok := SetIndentationMode();
      if !ok {
        return Failure(IndentScanOverrun);
      }
      r := Structure(s);
    }

    /** Next once the style is settled: a pending DEDENT, the indentation of a new line, or the line. */
    method Structure(ghost s: LexState) returns (r: Result<Token, LexError>)
      requires Valid() && s.Valid() && DetectMode(s) == Success(State())
      modifies this
      ensures Valid()
      ensures LexSpec.Structure(s, old(State())) == if r.Success? then Success((r.value, State())) else Failure(r.error)
      decreases |input| - position, 1
    {
      ghost var s1 := State();
      if dedentCount > 0 {
        dedentCount := dedentCount - 1;
        return Success(Token(Dedent, ""));
      }
      if ch == '\n' {
        var t := Indentation();
        if t.Some? {
          return Success(t.value);
        }
      }
      ghost var s2 := State();
      assert s2 == if s1.Ch() == '\n' then LexSpec.Indentation(s1).1 else s1;
      assert LexSpec.Structure(s, s1) == Continue(s, s2);
      r := ContinueLine(s);
    }

    /** The rest of Next once no structural token is due: skip blanks, then skip a comment and start over, or scan. */
    method ContinueLine(ghost s: LexState) returns (r: Result<Token, LexError>)
      requires Valid() && SameLayout(s, State())
      modifies this
      ensures Valid()
      ensures Continue(s, old(State())) == if r.Success? then Success((r.value, State())) else Failure(r.error)
      decreases |input| - position, 0
    {
      ghost var s2 := State();
      SkipWhitespace();
      if ch == '#' {
        SkipComment();
        assert Continue(s, s2) == LexSpec.Next(State());
        r := Next();
        return;
      }
      assert Continue(s, s2) == Success(Scan(State()));
      var t := ScanToken();
      return Success(t);
    }
  }
}

=== FILE: lexfacts.dfy ===
/**
 * Properties of the token stream that the lexer of lexer/lexer.go hands out,
 * proved about LexSpec.Next over several calls.
 */
module LexFacts {
  import opened Wrappers
  import opened Tokens
  import opened LexSpec

  /** The first n tokens Next hands out from s, with the state after them. */
  function Lex(s: LexState, n: nat): (r: Result<(seq<Token>, LexState), LexError>)
    requires s.Valid()
    ensures r.Success? ==> |r.value.0| == n && r.value.1.Valid() && r.value.1.input == s.input
    ensures r.Success? ==> forall i :: 0 <= i < n ==> ValidToken(r.value.0[i])
    decreases n
  {
    if n == 0 then Success(([], s))
    else
      match Next(s)
      case Failure(e) => Failure(e)
      case Success((t, s1)) =>
        match Lex(s1, n - 1)
        case Failure(e) => Failure(e)
        case Success((ts, s2)) => Success(([t] + ts, s2))
  }

  /** One more token: Next's, then the n after it. */
  lemma LexStep(s: LexState, n: nat, t: Token, s1: LexState, ts: seq<Token>, s2: LexState)
    requires s.Valid() && n > 0 && Next(s) == Success((t, s1)) && Lex(s1, n - 1) == Success((ts, s2))
    ensures Lex(s, n) == Success(([t] + ts, s2))
  {
  }

  function Dedents(n: nat): (r: seq<Token>)
    ensures |r| == n && forall i :: 0 <= i < n ==> r[i] == Token(Dedent, "")
  {
    seq(n, _ => Token(Dedent, ""))
  }

  /** Pending DEDENTs come out first, one per call, touching nothing but the count. */
  lemma {:induction false} PendingDedentsDrain(s: LexState)
    requires s.Valid()
    ensures Lex(s, s.dedentCount) == Success((Dedents(s.dedentCount), s.(dedentCount := 0)))
    decreases s.dedentCount
  {
    if s.dedentCount > 0 {
      var s1 := s.(dedentCount := s.dedentCount - 1);
      assert Next(s) == Success((Token(Dedent, ""), s1));
      PendingDedentsDrain(s1);
      assert s1.(dedentCount := 0) == s.(dedentCount := 0);
      assert Dedents(s.dedentCount) == [Token(Dedent, "")] + Dedents(s1.dedentCount);
    }
  }

  /**
   * A line that closes k indentation levels yields k DEDENT tokens in a row,
   * after which the stack has lost exactly those k entries.
   */
  lemma DedentBurst(s: LexState, t: Token, s1: LexState)
    requires s.Valid() && s.dedentCount == 0
    requires Next(s) == Success((t, s1)) && t.kind == Dedent
    ensures
      var k := |s.indentStack| - |s1.indentStack|;
      && k >= 1
      && s1.indentStack == s.indentStack[..|s1.indentStack|]
      && Lex(s, k) == Success((Dedents(k), s1.(dedentCount := 0)))
  {
    assert Stepped(s, t, s1);
    DrainAfter(s, t, s1);
  }

  /** A DEDENT followed by the ones it left pending. */
  lemma DrainAfter(s: LexState, t: Token, s1: LexState)
    requires s.Valid() && Next(s) == Success((t, s1)) && t == Token(Dedent, "")
    ensures Lex(s, s1.dedentCount + 1) == Success((Dedents(s1.dedentCount + 1), s1.(dedentCount := 0)))
  {
    PendingDedentsDrain(s1);
    LexStep(s, s1.dedentCount + 1, t, s1, Dedents(s1.dedentCount), s1.(dedentCount := 0));
    DedentsCons(s1.dedentCount);
  }

  lemma DedentsCons(n: nat)
    ensures Dedents(n + 1) == [Token(Dedent, "")] + Dedents(n)
  {
  }

  /** At the end of input with no DEDENT pending, Next hands out EOF and leaves the state as it is. */
  lemma AtEndStaysAtEnd(s: LexState)
    requires s.Valid() && s.Ch() == NUL && s.dedentCount == 0
    ensures Next(s) == Success((Token(Eof, ""), s))
  {
    assert DetectMode(s) == Success(s);
    assert Until(s.input, s.position, EndOfBlanks) == s.position;
    assert Continue(s, s) == Success(Scan(s));
  }

  /** Once Next has handed out EOF, it keeps handing out EOF without moving. */
  lemma EofIsFinal(s: LexState)
    requires s.Valid() && Next(s).Success? && Next(s).value.0.kind == Eof
    ensures var s1 := Next(s).value.1; Next(s1) == Success((Token(Eof, ""), s1))
  {
    AtEndStaysAtEnd(Next(s).value.1);
  }

  function Eofs(n: nat): (r: seq<Token>)
    ensures |r| == n && forall i :: 0 <= i < n ==> r[i] == Token(Eof, "")
  {
    seq(n, _ => Token(Eof, ""))
  }

  /** A state on which Next returns EOF and stays put yields EOF on every later call. */
  lemma {:induction false} StuckAtEof(s: LexState, n: nat)
    requires s.Valid() && Next(s) == Success((Token(Eof, ""), s))
    ensures Lex(s, n) == Success((Eofs(n), s))
  {
    if n > 0 {
      StuckAtEof(s, n - 1);
      assert Eofs(n) == [Token(Eof, "")] + Eofs(n - 1);
    }
  }

  /** After EOF the lexer is exhausted: any number of further calls yields only EOF. */
  lemma EofForever(s: LexState, n: nat)
    requires s.Valid() && Next(s).Success? && Next(s).value.0.kind == Eof
    ensures var s1 := Next(s).value.1; Lex(s1, n) == Success((Eofs(n), s1))
  {
    EofIsFinal(s);
    StuckAtEof(Next(s).value.1, n);
  }

  /**
   * A newline followed by a deeper indentation yields a single INDENT and pushes
   * that one level, however many levels deeper the line is.
   */
  lemma DeeperLinePushesOnce(s: LexState)
    requires s.Valid() && s.dedentCount == 0 && s.Ch() == '\n'
    requires DetectMode(s).Success?
    requires var s1 := DetectMode(s).value; IndentLevel(s1) > s1.Top()
    ensures
      var s1 := DetectMode(s).value;
      && Next(s).Success?
      && Next(s).value.0 == Token(Indent, "")
      && Next(s).value.1.indentStack == s.indentStack + [IndentLevel(s1)]
      && Next(s).value.1.position == s.position + IndentCount(s1)
  {
  }

  /** Continue's first argument only carries its contract: its value depends on the second alone. */
  lemma ContinueIgnoresOrigin(s: LexState, t: LexState, s2: LexState)
    requires SameLayout(s, s2) && SameLayout(t, s2)
    ensures Continue(s, s2) == Continue(t, s2)
  {
  }

  /** On a line of equal indentation Next skips the indentation and goes on with the line. */
  lemma EqualIndentContinues(s: LexState, s1: LexState)
    requires s.Valid() && s.dedentCount == 0 && s.Ch() == '\n'
    requires DetectMode(s) == Success(s1) && IndentLevel(s1) == s1.Top()
    ensures SameLayout(s, s1.(position := s.position + IndentCount(s1)))
    ensures Next(s) == Continue(s, s1.(position := s.position + IndentCount(s1)))
  {
    var s2 := s1.(position := s.position + IndentCount(s1));
    assert s1.dedentCount == 0 && s1.Ch() == '\n';
    var ind := LexSpec.Indentation(s1);
    assert ind == (None, s2);
    assert Next(s) == Structure(s, s1);
    assert Structure(s, s1) == Continue(s, ind.1);
  }

  /** Off a newline and with no DEDENT pending, Next goes straight on with the line. */
  lemma MidLineContinues(s: LexState)
    requires s.Valid() && s.dedentCount == 0 && s.Ch() != '\n'
    ensures SameLayout(s, s) && Next(s) == Continue(s, s)
  {
    assert DetectMode(s) == Success(s);
  }

  /**
   * A newline whose indentation equals the current level is transparent: Next
   * returns what it returns from the last indentation character on.
   */
  lemma EqualIndentIsTransparent(s: LexState, s1: LexState)
    requires s.Valid() && s.dedentCount == 0 && s.Ch() == '\n'
    requires DetectMode(s) == Success(s1) && IndentLevel(s1) == s1.Top() && IndentCount(s1) > 0
    ensures Next(s) == Next(s1.(position := s.position + IndentCount(s1)))
  {
    var s2 := s1.(position := s.position + IndentCount(s1));
    EqualIndentContinues(s, s1);
    assert s2.Ch() == s2.input[s2.position] != '\n';
    MidLineContinues(s2);
    ContinueIgnoresOrigin(s, s2, s2);
  }

  /**
   * A comment produces no token: from a `#` mid-line, Next returns what it
   * returns from where the comment stops (a newline, a NUL or the end of input).
   */
  lemma CommentIsTransparent(s: LexState)
    requires s.Valid() && s.dedentCount == 0 && s.Ch() == '#'
    ensures var q := Until(s.input, s.position, EndOfComment);
      && EndOfComment(CharAt(s.input, q))
      && s.(position := q).Valid()
      && Next(s) == Next(s.(position := q))
  {
    MidLineContinues(s);
    assert Until(s.input, s.position, EndOfBlanks) == s.position;
  }
}

=== FILE: lexspec.dfy ===
/**
 * The lexer of lexer/lexer.go as functions on a value state. One call of `Next`
 * here is one call of `Lexer.Next` there; the class in lexer.dfy is proved to
 * follow these functions step for step.
 */
module LexSpec {
  import opened Wrappers
  import opened Tokens

  /** The character at i, or NUL past the end: what `ch` and `peek()` hold. */
  function CharAt(input: string, i: nat): char {
    if i < |input| then input[i] else NUL
  }

  // Where each scanning loop stops. Named (not lambdas) so that the class's
  // loops and these functions denote the very same predicate.
  predicate EndOfBlanks(c: char) { !IsBlank(c) }
  predicate EndOfComment(c: char) { c == '\n' || c == NUL }
  predicate EndOfString(c: char) { c == '"' || c == NUL }
  predicate EndOfIdent(c: char) { !IsIdentChar(c) }
  predicate EndOfNumber(c: char) { !IsDigit(c) }
  predicate EndOfSpaceRun(c: char) { !IsSpace(c) }
  predicate EndOfSpaces(c: char) { c != ' ' }
  predicate EndOfTabs(c: char) { c != '\t' }

  /** The first index at or after p whose character stops the scan. */
  function Until(input: string, p: nat, stop: char -> bool): (q: nat)
    requires p <= |input| && stop(NUL)
    ensures p <= q <= |input| && stop(CharAt(input, q))
    ensures forall i :: p <= i < q ==> !stop(input[i])
    decreases |input| - p
  {
    if stop(CharAt(input, p)) then p else Until(input, p + 1, stop)
  }

  /** A scan that ran over non-stopping characters up to a stopping one ended where Until ends. */
  lemma UntilIsFirst(input: string, p: nat, stop: char -> bool, q: nat)
    requires p <= q <= |input| && stop(NUL) && stop(CharAt(input, q))
    requires forall i :: p <= i < q ==> !stop(input[i])
    ensures Until(input, p, stop) == q
  {
  }

  /** The indentation stack: never empty, 0 at the bottom, strictly increasing upwards. */
  predicate StackValid(st: seq<nat>) {
    |st| > 0 && st[0] == 0 && forall i, j :: 0 <= i < j < |st| ==> st[i] < st[j]
  }

  /**
   * The lexer's fields, `ch` and `readPosition` being CharAt(input, position)
   * and position + 1. indentWidth is -1 until the indentation style is detected.
   */
  datatype LexState = LexState(
    input: string,
    position: nat,
    indentWidth: int,
    useSpaces: bool,
    indentStack: seq<nat>,
    dedentCount: nat)
  {
    predicate Valid() {
      && position <= |input|
      && StackValid(indentStack)
      && (indentWidth == -1 || indentWidth >= 1)
      && (useSpaces ==> indentWidth >= 1)
      && (indentWidth == -1 ==> !useSpaces && indentStack == [0] && dedentCount == 0)
    }

    function Ch(): char {
      CharAt(input, position)
    }

    function Peek(): char {
      CharAt(input, position + 1)
    }

    function Top(): nat
      requires |indentStack| > 0
    {
      indentStack[|indentStack| - 1]
    }

    /** Characters not yet consumed. */
    function Remaining(): nat {
      if position <= |input| then |input| - position else 0
    }

    /** Stack entries plus pending DEDENTs: what a DEDENT uses up. */
    function Pending(): nat {
      |indentStack| + dedentCount
    }
  }

  /** NewLexer: the cursor on the first character, style undetected, stack [0]. */
  function Init(input: string): (s: LexState)
    ensures s.Valid() && s.Ch() == CharAt(input, 0)
  {
    LexState(input, 0, -1, false, [0], 0)
  }

  /** a is no further from the end of lexing than b (lexicographic on Remaining, Pending). */
  predicate NoWorse(a: LexState, b: LexState) {
    a.Remaining() < b.Remaining() || (a.Remaining() == b.Remaining() && a.Pending() <= b.Pending())
  }

  /** a is strictly closer to the end of lexing than b. */
  predicate Better(a: LexState, b: LexState) {
    a.Remaining() < b.Remaining() || (a.Remaining() == b.Remaining() && a.Pending() < b.Pending())
  }

  /** The Go lexer indexes past the end of its input while measuring the first indentation. */
  datatype LexError = IndentScanOverrun

  /** setIndentationMode: fix the indentation style at the first newline followed by a space or tab. */
  function DetectMode(s: LexState): (r: Result<LexState, LexError>)
    requires s.Valid()
    ensures r.Success? ==> r.value.Valid()
    ensures r.Success? ==> r.value == s.(indentWidth := r.value.indentWidth, useSpaces := r.value.useSpaces)
    ensures s.indentWidth != -1 ==> r == Success(s)
    ensures r.Success? && r.value.indentWidth == -1 ==> !(s.Ch() == '\n' && (s.Peek() == ' ' || s.Peek() == '\t'))
    ensures r.Failure? ==> s.indentWidth == -1
  {
    var isIndent := s.Ch() == '\n' && s.Peek() != NUL && (s.Peek() == ' ' || s.Peek() == '\t');
    if s.indentWidth != -1 || !isIndent then Success(s)
    else if s.input[s.position + 1] == '\t' then Success(s.(useSpaces := false, indentWidth := 1))
    else
      var e := Until(s.input, s.position + 1, EndOfSpaceRun);
      if e == |s.input| then Failure(IndentScanOverrun)
      else Success(s.(useSpaces := true, indentWidth := e - (s.position + 1)))
  }

  /** The style chosen at the first indented line: one tab per level, or the width of the leading whitespace run. */
  lemma {:induction false} DetectedStyle(s: LexState)
    requires s.Valid() && s.indentWidth == -1 && s.Ch() == '\n'
    requires DetectMode(s).Success?
    ensures s.Peek() == '\t' ==> DetectMode(s).value.indentWidth == 1 && !DetectMode(s).value.useSpaces
    ensures s.Peek() == ' ' ==>
      var w := DetectMode(s).value.indentWidth;
      && DetectMode(s).value.useSpaces && w >= 1
      && s.position + 1 + w < |s.input|
      && (forall i :: s.position + 1 <= i < s.position + 1 + w ==> IsSpace(s.input[i]))
      && !IsSpace(s.input[s.position + 1 + w])
    ensures s.Peek() != ' ' && s.Peek() != '\t' ==> DetectMode(s).value == s
  {
    if s.Peek() == ' ' {
      var e := Until(s.input, s.position + 1, EndOfSpaceRun);
      assert DetectMode(s).value.indentWidth == e - (s.position + 1);
      forall i | s.position + 1 <= i < e ensures IsSpace(s.input[i]) {
        assert !EndOfSpaceRun(s.input[i]);
      }
      assert EndOfSpaceRun(CharAt(s.input, e));
    }
  }

  /** readIndentLevel's count: the indent characters after the newline under the cursor. */
  function IndentCount(s: LexState): (n: nat)
    requires s.Valid() && s.Ch() == '\n'
    ensures s.position + n < |s.input|
    ensures forall i :: s.position < i <= s.position + n ==> s.input[i] == (if s.useSpaces then ' ' else '\t')
    ensures CharAt(s.input, s.position + n + 1) != (if s.useSpaces then ' ' else '\t')
  {
    var stop := if s.useSpaces then EndOfSpaces else EndOfTabs;
    var q := Until(s.input, s.position + 1, stop);
    assert forall i :: s.position + 1 <= i < q ==> !stop(s.input[i]);
    q - (s.position + 1)
  }

  /** readIndentLevel: the count in units of the detected width (tabs count one each). */
  function IndentLevel(s: LexState): nat
    requires s.Valid() && s.Ch() == '\n'
  {
    if s.useSpaces then IndentCount(s) / s.indentWidth else IndentCount(s)
  }

  /**
   * The loop at lexer.go:106-109: pop while the top exceeds the level. The result
   * is exactly the entries of the stack that are at most the level, a prefix.
   */
  function PopAbove(st: seq<nat>, level: nat): (r: seq<nat>)
    requires StackValid(st)
    ensures StackValid(r) && |r| <= |st| && r == st[..|r|]
    ensures forall i :: 0 <= i < |st| ==> (i < |r| <==> st[i] <= level)
    decreases |st|
  {
    if level < st[|st| - 1] then
      var r := PopAbove(st[..|st| - 1], level);
      assert st[..|st| - 1][..|r|] == st[..|r|];
      r
    else
      st
  }

  /**
   * The indentation branch of Next, taken with no DEDENT pending and the cursor on
   * a newline: a deeper line pushes its level once, a shallower one pops every
   * deeper entry, an equal one yields no structural token.
   */
  function Indentation(s: LexState): (r: (Option<Token>, LexState))
    requires s.Valid() && s.dedentCount == 0 && s.Ch() == '\n'
    requires s.indentWidth == -1 ==> !(s.Peek() == ' ' || s.Peek() == '\t')
    ensures r.1.Valid() && r.1.input == s.input
    ensures r.1.indentWidth == s.indentWidth && r.1.useSpaces == s.useSpaces
    ensures r.1.position == s.position + IndentCount(s)
    ensures r.1.Top() <= IndentLevel(s)
    ensures r.1.Top() == IndentLevel(s) <==> (IndentLevel(s) in s.indentStack || IndentLevel(s) > s.Top())
    ensures r.0.None? <==> IndentLevel(s) == s.Top()
    ensures r.0.None? ==> r.1.indentStack == s.indentStack && r.1.dedentCount == 0
    ensures r.0 == Some(Token(Indent, "")) <==> IndentLevel(s) > s.Top()
    ensures r.0 == Some(Token(Indent, "")) ==>
      r.1.indentStack == s.indentStack + [IndentLevel(s)] && r.1.dedentCount == 0
    ensures r.0.Some? && r.0 != Some(Token(Indent, "")) ==>
      && r.0 == Some(Token(Dedent, ""))
      && r.1.indentStack == PopAbove(s.indentStack, IndentLevel(s))
      && |r.1.indentStack| < |s.indentStack|
      && r.1.dedentCount == |s.indentStack| - |r.1.indentStack| - 1
  {
    var n := IndentCount(s);
    var level := IndentLevel(s);
    var s2 := s.(position := s.position + n);
    if level > s.Top() then
      (Some(Token(Indent, "")), s2.(indentStack := s.indentStack + [level]))
    else if level < s.Top() then
      var st := PopAbove(s.indentStack, level);
      (Some(Token(Dedent, "")), s2.(indentStack := st, dedentCount := |s.indentStack| - |st| - 1))
    else
      (None, s2)
  }

  /** readStringToken: the text between the quotes, or ILLEGAL "Unclosed string" at end of input. */
  function ScanString(s: LexState): (r: (Token, LexState))
    requires s.Valid() && s.Ch() == '"'
    ensures r.1 == s.(position := r.1.position) && s.position < r.1.position <= |s.input|
    ensures r.0.kind == Str || r.0 == Token(Illegal, "Unclosed string")
    ensures r.0.kind == Str ==> r.1.position >= s.position + 2
    ensures r.0.kind == Str ==>
      && s.input[r.1.position - 1] == '"'
      && r.0.lexeme == s.input[s.position + 1..r.1.position - 1]
      && forall i :: 0 <= i < |r.0.lexeme| ==> r.0.lexeme[i] != '"' && r.0.lexeme[i] != NUL
    ensures r.0.kind != Str ==> r.1.Ch() == NUL
  {
    var q := Until(s.input, s.position + 1, EndOfString);
    if CharAt(s.input, q) == '"' then
      var body := s.input[s.position + 1..q];
      assert forall i :: 0 <= i < |body| ==> body[i] == s.input[s.position + 1 + i];
      (Token(Str, body), s.(position := q + 1))
    else
      (Token(Illegal, "Unclosed string"), s.(position := q))
  }

  /** Where the string body stops decides the token: a closing quote there ends it, anything else is the end of input. */
  lemma ScanStringEnds(s: LexState, q: nat)
    requires s.Valid() && s.Ch() == '"' && q == Until(s.input, s.position + 1, EndOfString)
    ensures s.position + 1 <= q <= |s.input|
    ensures CharAt(s.input, q) == '"' ==> ScanString(s) == (Token(Str, s.input[s.position + 1..q]), s.(position := q + 1))
    ensures CharAt(s.input, q) != '"' ==> ScanString(s) == (Token(Illegal, "Unclosed string"), s.(position := q))
  {
  }

  /** readLexeme and lookupKeyword: the maximal run of identifier characters, a keyword or an IDENT. */
  function ScanWord(s: LexState): (r: (Token, LexState))
    requires s.Valid() && IsAlpha(s.Ch())
    ensures r.1 == s.(position := r.1.position) && s.position < r.1.position <= |s.input|
    ensures r.0.lexeme == s.input[s.position..r.1.position] && !IsIdentChar(r.1.Ch())
    ensures r.0.kind == LookupKeyword(r.0.lexeme)
    ensures ValidToken(r.0) && (r.0.kind == Ident || IsKeywordKind(r.0.kind))
  {
    var e := Until(s.input, s.position, EndOfIdent);
    var w := s.input[s.position..e];
    assert forall i :: 0 <= i < |w| ==> w[i] == s.input[s.position + i];
    assert IsIdentifier(w);
    KeywordTokenValid(w);
    (Token(LookupKeyword(w), w), s.(position := e))
  }

  /** readNumber: the maximal run of digits. */
  function ScanNumber(s: LexState): (r: (Token, LexState))
    requires s.Valid() && IsDigit(s.Ch())
    ensures r.1 == s.(position := r.1.position) && s.position < r.1.position <= |s.input|
    ensures r.0 == Token(Number, s.input[s.position..r.1.position]) && !IsDigit(r.1.Ch())
    ensures ValidToken(r.0)
  {
    var e := Until(s.input, s.position, EndOfNumber);
    var w := s.input[s.position..e];
    assert forall i :: 0 <= i < |w| ==> w[i] == s.input[s.position + i];
    (Token(Number, w), s.(position := e))
  }

  /** One ordinary token at the cursor, which skipWhitespace has left on a non-blank character. */
  function Scan(s: LexState): (r: (Token, LexState))
    requires s.Valid()
    ensures r.1 == s.(position := r.1.position) && s.position <= r.1.position <= |s.input|
    ensures ValidToken(r.0) && r.0.kind != Indent && r.0.kind != Dedent
    ensures r.0.kind == Eof <==> s.Ch() == NUL
    ensures r.0.kind == Eof ==> r.1 == s && r.0.lexeme == ""
    ensures r.0.kind != Eof ==> r.1.position > s.position
    ensures s.Ch() == '[' ==> r == (Token(LSquare, "["), s.(position := s.position + 1))
    ensures s.Ch() == ']' ==> r == (Token(RSquare, "]"), s.(position := s.position + 1))
    ensures s.Ch() == ',' ==> r == (Token(Comma, ","), s.(position := s.position + 1))
    ensures var c := s.Ch();
      c != '"' && c != '[' && c != ']' && c != ',' && c != NUL && !IsAlpha(c) && !IsDigit(c) ==>
        r == (Token(Illegal, [c]), s.(position := s.position + 1))
  {
    var c := s.Ch();
    if c == '"' then
      ScanString(s)
    else if c == '[' then
      (Token(LSquare, "["), s.(position := s.position + 1))
    else if c == ']' then
      (Token(RSquare, "]"), s.(position := s.position + 1))
    else if c == ',' then
      (Token(Comma, ","), s.(position := s.position + 1))
    else if IsAlpha(c) then
      ScanWord(s)
    else if IsDigit(c) then
      ScanNumber(s)
    else if c == NUL then
      (Token(Eof, ""), s)
    else
      (Token(Illegal, [c]), s.(position := s.position + 1))
  }

  /** What one call of Next guarantees about the token it returns and the state it leaves. */
  predicate Stepped(s: LexState, t: Token, s1: LexState)
    requires s.Valid()
  {
    && s1.Valid() && s1.input == s.input
    && ValidToken(t)
    && NoWorse(s1, s) && (t.kind != Eof ==> Better(s1, s))
    && (t.kind == Eof ==> s1.Ch() == NUL && s1.dedentCount == 0)
    && (s.indentWidth != -1 ==> s1.indentWidth == s.indentWidth && s1.useSpaces == s.useSpaces)
    && (s.dedentCount > 0 ==> t == Token(Dedent, "") && s1 == s.(dedentCount := s.dedentCount - 1))
    && (s.dedentCount == 0 && t.kind == Indent ==>
          && s1.dedentCount == 0
          && |s1.indentStack| == |s.indentStack| + 1
          && s1.indentStack[..|s.indentStack|] == s.indentStack)
    && (s.dedentCount == 0 && t.kind == Dedent ==>
          && |s1.indentStack| < |s.indentStack|
          && s1.indentStack == s.indentStack[..|s1.indentStack|]
          && s1.dedentCount == |s.indentStack| - |s1.indentStack| - 1)
    && (t.kind != Indent && t.kind != Dedent ==> s1.dedentCount == 0 && s1.indentStack == s.indentStack)
  }

  /** s2 continues s on the same line structure: only the cursor (and a newly detected style) moved. */
  predicate SameLayout(s: LexState, s2: LexState) {
    && s.Valid() && s2.Valid() && s2.input == s.input
    && s.position <= s2.position
    && s.dedentCount == 0 && s2.dedentCount == 0
    && s2.indentStack == s.indentStack
    && (s.indentWidth != -1 ==> s2.indentWidth == s.indentWidth && s2.useSpaces == s.useSpaces)
  }

  lemma ScanStepped(s: LexState, s2: LexState)
    requires SameLayout(s, s2)
    ensures Stepped(s, Scan(s2).0, Scan(s2).1)
  {
  }

  lemma CommentStepped(s: LexState, s2: LexState, t: Token, s3: LexState)
    requires SameLayout(s, s2) && s2.position > s.position && Stepped(s2, t, s3)
    ensures Stepped(s, t, s3)
  {
  }

  lemma IndentStepped(s: LexState, s1: LexState)
    requires s.Valid() && s.dedentCount == 0 && DetectMode(s) == Success(s1) && s1.Ch() == '\n'
    requires Indentation(s1).0.Some?
    ensures Stepped(s, Indentation(s1).0.value, Indentation(s1).1)
  {
    var t := Indentation(s1).0.value;
    var s2 := Indentation(s1).1;
    assert s1.position == s.position && s1.indentStack == s.indentStack && s1.dedentCount == 0;
    if t == Token(Indent, "") {
      assert IndentLevel(s1) > 0;
      assert IndentCount(s1) > 0;
      assert s2.Remaining() < s.Remaining();
    } else {
      assert t == Token(Dedent, "");
      assert s2.Pending() < s.Pending();
    }
  }

  /**
   * Lexer.Next: settle the indentation style, then drain a pending DEDENT; else,
   * on a newline, measure the indentation; else go on with the rest of the
   * line (Continue).
   */
  function Next(s: LexState): (r: Result<(Token, LexState), LexError>)
    requires s.Valid()
    ensures r.Failure? ==> s.indentWidth == -1
    ensures r.Success? ==> Stepped(s, r.value.0, r.value.1)
    decreases s.Remaining(), 2
  {
    match DetectMode(s)
    case Failure(e) => Failure(e)
    case Success(s1) => Structure(s, s1)
  }

  /** Next once the style is settled in s1: a pending DEDENT, an INDENT or DEDENT at a newline, or the line. */
  function Structure(s: LexState, s1: LexState): (r: Result<(Token, LexState), LexError>)
    requires s.Valid() && DetectMode(s) == Success(s1)
    ensures r.Failure? ==> s.indentWidth == -1
    ensures r.Success? ==> Stepped(s, r.value.0, r.value.1)
    decreases s.Remaining(), 1
  {
    if s1.dedentCount > 0 then
      Success((Token(Dedent, ""), s1.(dedentCount := s1.dedentCount - 1)))
    else if s1.Ch() == '\n' && Indentation(s1).0.Some? then
      IndentStepped(s, s1);
      Success((Indentation(s1).0.value, Indentation(s1).1))
    else
      var s2 := if s1.Ch() == '\n' then Indentation(s1).1 else s1;
      Continue(s, s2)
  }

  /** The rest of Next once no structural token is due: skip blanks, then skip a comment and start over, or scan. */
  function Continue(s: LexState, s2: LexState): (r: Result<(Token, LexState), LexError>)
    requires SameLayout(s, s2)
    ensures r.Failure? ==> s.indentWidth == -1
    ensures r.Success? ==> Stepped(s, r.value.0, r.value.1)
    decreases s2.Remaining(), 0
  {
    var p := Until(s2.input, s2.position, EndOfBlanks);
    if CharAt(s2.input, p) == '#' then
      var q := Until(s2.input, p, EndOfComment);
      var r := Next(s2.(position := q));
      if r.Success? then
        CommentStepped(s, s2.(position := q), r.value.0, r.value.1);
        r
      else
        r
    else
      ScanStepped(s, s2.(position := p));
      Success(Scan(s2.(position := p)))
  }
}

=== FILE: logix.dfy ===
/**
 * Evaluate of evaluator/evaluator.go and EvaluateLogix of main.go. Statements
 * are parsed one at a time and each is evaluated as soon as it is parsed; the
 * first error or the first false statement ends the run, and whatever follows
 * it is never parsed.
 */
module Logix {
  import opened Wrappers
  import opened Tokens
  import opened Lexing
  import opened Ast
  import opened ParseSpec
  import opened Parsing
  import opened Evaluator
  import Paths
  import ParseFacts

  /** What makes a run fail: the parser, or the evaluator. */
  datatype LogixError =
    | ParseFailed(parse: ParseError)
    | EvalFailed(eval: EvalError)

  /** The loop of Evaluate on the feed: true once EOF is reached with no statement false. */
  function EvalProgram(ps: Feed, context: map<string, Val>): Result<bool, LogixError>
    requires ps.Ready()
    decreases |ps.toks|
  {
    match ParseNext(ps)
    case Failure(e) => Failure(ParseFailed(e))
    case Success((None, _)) => Success(true)
    case Success((Some(stmt), ps2)) =>
      match EvalNode(stmt, VMap(context))
      case Failure(e) => Failure(EvalFailed(e))
      case Success(b) => if b then EvalProgram(ps2, context) else Success(false)
  }

  /** Every statement of the feed, parsed to EOF. */
  function Statements(ps: Feed): (r: Result<seq<Node>, ParseError>)
    requires ps.Ready()
    ensures r.Success? ==> forall k :: 0 <= k < |r.value| ==> WellFormed(r.value[k])
    decreases |ps.toks|
  {
    var next :- ParseNext(ps);
    match next.0
    case None => Success([])
    case Some(stmt) =>
      var rest :- Statements(next.1);
      Success([stmt] + rest)
  }

  /** Every statement evaluates to true. */
  predicate AllTrue(stmts: seq<Node>, context: map<string, Val>) {
    forall k :: 0 <= k < |stmts| ==> EvalNode(stmts[k], VMap(context)) == Success(true)
  }

  lemma AllTrueCons(stmt: Node, rest: seq<Node>, context: map<string, Val>)
    ensures AllTrue([stmt] + rest, context) <==>
      EvalNode(stmt, VMap(context)) == Success(true) && AllTrue(rest, context)
  {
    var all := [stmt] + rest;
    assert all[0] == stmt;
    assert forall k :: 1 <= k < |all| ==> all[k] == rest[k - 1];
    if AllTrue(all, context) {
      assert EvalNode(all[0], VMap(context)) == Success(true);
      forall k | 0 <= k < |rest|
        ensures EvalNode(rest[k], VMap(context)) == Success(true)
      {
        assert rest[k] == all[k + 1];
      }
    }
    if AllTrue(rest, context) && EvalNode(stmt, VMap(context)) == Success(true) {
      forall k | 0 <= k < |all|
        ensures EvalNode(all[k], VMap(context)) == Success(true)
      {
        if k > 0 {
          assert all[k] == rest[k - 1];
        }
      }
    }
  }

  /** A run is true exactly when the whole input parses and every statement in it is true. */
  lemma {:induction false} TrueMeansAllTrue(ps: Feed, context: map<string, Val>)
    requires ps.Ready()
    ensures EvalProgram(ps, context) == Success(true) <==>
      Statements(ps).Success? && AllTrue(Statements(ps).value, context)
    decreases |ps.toks|
  {
    var next := ParseNext(ps);
    if next.Success? && next.value.0.Some? {
      var stmt, ps2 := next.value.0.value, next.value.1;
      var b := EvalNode(stmt, VMap(context));
      TrueMeansAllTrue(ps2, context);
      assert EvalProgram(ps, context) == if b == Success(true) then EvalProgram(ps2, context) else if b.Failure? then Failure(EvalFailed(b.error)) else Success(false);
      match Statements(ps2)
      case Failure(e) =>
        assert Statements(ps) == Failure(e);
      case Success(rest) =>
        assert Statements(ps) == Success([stmt] + rest);
        AllTrueCons(stmt, rest, context);
    }
  }

  /**
   * The first statement that is not true decides the run: two feeds whose next
   * statement is the same non-true one run to the same verdict, whatever
   * follows it, and that verdict is the statement's error or false.
   */
  lemma StopsAtFirstNonTrue(ps: Feed, q: Feed, stmt: Node, ps2: Feed, q2: Feed, context: map<string, Val>)
    requires ps.Ready() && q.Ready()
    requires ParseNext(ps) == Success((Some(stmt), ps2)) && ParseNext(q) == Success((Some(stmt), q2))
    requires EvalNode(stmt, VMap(context)) != Success(true)
    ensures EvalProgram(ps, context) == EvalProgram(q, context)
    ensures EvalProgram(ps, context) ==
      match EvalNode(stmt, VMap(context))
      case Failure(e) => Failure(EvalFailed(e))
      case Success(_) => Success(false)
  {
  }

  /** A reference run over statements already parsed: the first one not true decides, else true. */
  function Run(stmts: seq<Node>, context: map<string, Val>): (r: Result<bool, LogixError>)
    ensures r == Success(true) <==> AllTrue(stmts, context)
    ensures r.Failure? ==> r.error.EvalFailed?
    decreases |stmts|
  {
    if stmts == [] then Success(true)
    else
      AllTrueCons(stmts[0], stmts[1..], context);
      assert [stmts[0]] + stmts[1..] == stmts;
      match EvalNode(stmts[0], VMap(context))
      case Failure(e) => Failure(EvalFailed(e))
      case Success(b) => if b then Run(stmts[1..], context) else Success(false)
  }

  /** When the whole input parses, the run is the reference run over its statements. */
  lemma {:induction false} RunsParsedStatements(ps: Feed, context: map<string, Val>)
    requires ps.Ready() && Statements(ps).Success?
    ensures EvalProgram(ps, context) == Run(Statements(ps).value, context)
    decreases |ps.toks|
  {
    var next := ParseNext(ps).value;
    if next.0.Some? {
      var stmt, ps2 := next.0.value, next.1;
      var rest := Statements(ps2).value;
      assert Statements(ps).value == [stmt] + rest;
      assert ([stmt] + rest)[1..] == rest;
      RunsParsedStatements(ps2, context);
    }
  }

  /** `a eq 1` followed by the tokens of rest. */
  function SampleWith(rest: seq<Token>): Feed {
    Feed([Token(Ident, "a"), Token(Eq, "eq"), Token(Number, "1")] + rest, Success(EofToken))
  }

  /** The sample program of FalseHidesLaterErrors: `a eq 1` followed by a stray `]`. */
  const Sample := SampleWith([Token(RSquare, "]")])

  /** The first condition of the sample, parsed up to its operand, whatever follows it. */
  lemma SampleCondition(rest: seq<Token>)
    requires Feed(rest, Success(EofToken)).Ready()
    ensures SampleWith(rest).Ready() && SampleWith(rest).Curr().kind == Ident
    ensures ParseCondition(SampleWith(rest)) ==
      Success((Cond("a", "eq", [VNum(1.0)], false), Feed([Token(Number, "1")] + rest, Success(EofToken))))
  {
    var f := SampleWith(rest);
    SampleReady(rest);
    assert ParseValue(Token(Number, "1")) == VNum(1.0) by {
      assert DigitsValue("1") == 1;
    }
    ParseFacts.PlainCondition(f);
  }

  /** The sample is a parser state, with its three tokens in front of rest. */
  lemma SampleReady(rest: seq<Token>)
    requires Feed(rest, Success(EofToken)).Ready()
    ensures SampleWith(rest).Ready() && ParseFacts.NoIndents(SampleWith(rest), 3)
    ensures SampleWith(rest).toks[0] == Token(Ident, "a") && SampleWith(rest).toks[1] == Token(Eq, "eq")
    ensures SampleWith(rest).toks[2..] == [Token(Number, "1")] + rest
  {
    var f := SampleWith(rest);
    SampleTail(rest);
    assert forall i :: 3 <= i < |f.toks| ==> f.toks[i] == rest[i - 3];
  }

  /** Past its first two tokens, the sample is its number token in front of rest. */
  lemma SampleTail(rest: seq<Token>)
    ensures SampleWith(rest).toks[2..] == [Token(Number, "1")] + rest
  {
    var f := SampleWith(rest);
    assert f.toks[2] == Token(Number, "1");
  }

  /** The first statement of the sample is that condition, and what follows it comes next. */
  lemma SampleFirstStatement(rest: seq<Token>)
    requires Feed(rest, Success(EofToken)).Ready()
    ensures SampleWith(rest).Ready()
    ensures ParseNext(SampleWith(rest)) == Success((Some(Cond("a", "eq", [VNum(1.0)], false)), Feed(rest, Success(EofToken))))
  {
    SampleCondition(rest);
    var f2 := Feed([Token(Number, "1")] + rest, Success(EofToken));
    assert f2.Rest() == Feed(rest, Success(EofToken));
    assert Advance(f2) == Success(Feed(rest, Success(EofToken)));
  }

  /** The first statement is false when a is 2. */
  lemma SampleFirstIsFalse()
    ensures EvalNode(Cond("a", "eq", [VNum(1.0)], false), VMap(map["a" := VNum(2.0)])) == Success(false)
  {
    var context := VMap(map["a" := VNum(2.0)]);
    Paths.WordThenRest("a", "");
    assert "a" + "" == "a" && "a"[..1] == "a" && "a"[1..] == "";
    assert Paths.Segments("a") == ["a"];
    assert Paths.ResolveField("a", context) == Success(VNum(2.0));
  }

  /**
   * A false statement ends the run before the next statement is parsed: the
   * stray `]` after `a eq 1` is never reported when a is 2, and the run is
   * that of `a eq 1` alone (an instance of StopsAtFirstNonTrue).
   */
  lemma FalseHidesLaterErrors()
    ensures Sample.Ready() && SampleWith([]).Ready()
    ensures EvalProgram(Sample, map["a" := VNum(2.0)]) == Success(false)
    ensures EvalProgram(Sample, map["a" := VNum(2.0)]) == EvalProgram(SampleWith([]), map["a" := VNum(2.0)])
    ensures Statements(Sample) == Failure(UnexpectedToken(Token(RSquare, "]")))
  {
    var rest := Feed([Token(RSquare, "]")], Success(EofToken));
    var none := Feed([], Success(EofToken));
    SampleFirstStatement(rest.toks);
    SampleFirstStatement([]);
    SampleFirstIsFalse();
    StopsAtFirstNonTrue(Sample, SampleWith([]), Cond("a", "eq", [VNum(1.0)], false), rest, none, map["a" := VNum(2.0)]);
    assert ParseNext(rest) == Failure(UnexpectedToken(Token(RSquare, "]")));
  }

  /** Evaluate: statements pulled from the parser and evaluated until EOF, an error or a false one. */
  method Evaluate(p: Parser, context: map<string, Val>) returns (r: Result<bool, LogixError>)
    requires p.Valid()
    modifies p, p.lexer
    ensures r == EvalProgram(old(p.State()), context)
  {
    while true
      invariant p.Valid()
      invariant EvalProgram(old(p.State()), context) == EvalProgram(p.State(), context)
      decreases |p.State().toks|
    {
      var parsed := p.ParseNext();
      if parsed.Failure? {
        return Failure(ParseFailed(parsed.error));
      }
      if parsed.value.None? {
        return Success(true);
      }
      var stmt := parsed.value.value;
      var b;
      if stmt.Cond? {
        b := EvaluateCondition(stmt, VMap(context));
      } else {
        b := EvaluateGroup(stmt, VMap(context));
      }
      if b.Failure? {
        return Failure(EvalFailed(b.error));
      }
      if !b.value {
        return Success(false);
      }
    }
  }

  /** EvaluateLogix on the text of a rule file: the parser's first token, then the run. */
  function EvaluateRules(content: string, context: map<string, Val>): Result<bool, LogixError> {
    match Begin(content)
    case Failure(e) => Failure(ParseFailed(e))
    case Success(ps) => EvalProgram(ps, context)
  }

  /** EvaluateLogix: a lexer on the text, a parser on the lexer, and Evaluate. */
  method EvaluateLogix(content: string, context: map<string, Val>) returns (r: Result<bool, LogixError>)
    ensures r == EvaluateRules(content, context)
  {
    var lex := new Lexer(content);
    var pr := Parser.New(lex);
    if pr.Failure? {
      return Failure(ParseFailed(pr.error));
    }
    r := Evaluate(pr.value, context);
  }
}

=== FILE: parsefacts.dfy ===
/**
 * What the parser of parser/parser.go makes of given token sequences: the
 * shape of a condition, of a range and of an array, the closing of groups by
 * DEDENT, and the array loop as Go writes it.
 */
module ParseFacts {
  import opened Wrappers
  import opened Tokens
  import opened Ast
  import opened ParseSpec

  /** No INDENT among the first n tokens of the feed. */
  predicate NoIndents(ps: Feed, n: nat) {
    n <= |ps.toks| && forall i :: 0 <= i < n ==> ps.toks[i].kind != Indent
  }

  /** With no INDENT next, nextToken consumes exactly one token. */
  lemma AdvanceOne(ps: Feed)
    requires ps.Ready() && NoIndents(ps, 2)
    ensures Feed(ps.toks[1..], ps.last).Ready()
    ensures Advance(ps) == Success(Feed(ps.toks[1..], ps.last))
  {
    assert ps.Rest().toks[0] == ps.toks[1];
  }

  /**
   * `field op value`: the operator is the raw lexeme of whatever token follows
   * the field (the parser does not check it), and the operand is the one value
   * of the token after it, on which the parser stops.
   */
  lemma PlainCondition(ps: Feed)
    requires ps.Ready() && NoIndents(ps, 3)
    requires ps.toks[0].kind == Ident && ps.toks[1].kind != Not
    requires ps.toks[1].lexeme != "between" && ps.toks[2].kind != LSquare
    ensures ParseCondition(ps) ==
      Success((Cond(ps.toks[0].lexeme, ps.toks[1].lexeme, [ParseValue(ps.toks[2])], false), Feed(ps.toks[2..], ps.last)))
  {
    AdvanceOne(ps);
    var ps1 := Feed(ps.toks[1..], ps.last);
    AdvanceOne(ps1);
    assert ps1.toks[1..] == ps.toks[2..];
  }

  /**
   * `field not op value`: accepted, negated, exactly when op is one of the
   * operators `not` may precede; otherwise NegationNotSupported naming op.
   */
  lemma NegatedCondition(ps: Feed)
    requires ps.Ready() && NoIndents(ps, 4)
    requires ps.toks[0].kind == Ident && ps.toks[1].kind == Not
    requires ps.toks[2].lexeme != "between" && ps.toks[3].kind != LSquare
    ensures ParseCondition(ps) ==
      if AllowedNegateSuffix(ps.toks[2].lexeme) then
        Success((Cond(ps.toks[0].lexeme, ps.toks[2].lexeme, [ParseValue(ps.toks[3])], true), Feed(ps.toks[3..], ps.last)))
      else
        Failure(NegationNotSupported(ps.toks[2].lexeme))
  {
    AdvanceOne(ps);
    var ps1 := Feed(ps.toks[1..], ps.last);
    AdvanceOne(ps1);
    var ps2 := Feed(ps1.toks[1..], ps.last);
    assert ps2.toks == ps.toks[2..];
    AdvanceOne(ps2);
    assert ps2.toks[1..] == ps.toks[3..];
  }

  /**
   * The operands of `between`: low, an AND token, high, giving exactly
   * [low, high] and stopping on high; anything but AND after low is
   * ExpectedAndInRange.
   */
  lemma RangeOperands(ps: Feed)
    requires ps.Ready() && NoIndents(ps, 3)
    ensures ParseOperands("between", ps) ==
      if ps.toks[1].kind == And then Success(([ParseValue(ps.toks[0]), ParseValue(ps.toks[2])], Feed(ps.toks[2..], ps.last)))
      else Failure(ExpectedAndInRange)
  {
    AdvanceOne(ps);
    var ps1 := Feed(ps.toks[1..], ps.last);
    AdvanceOne(ps1);
    assert ps1.toks[1..] == ps.toks[2..];
  }

  /** The feed from the i-th token of toks on. */
  function From(toks: seq<Token>, last: Result<Token, LexSpec.LexError>, i: nat): Feed
    requires i <= |toks|
  {
    Feed(toks[i..], last)
  }

  /** With no INDENT after it, nextToken on the i-th token moves to the next one. */
  lemma AdvanceAt(toks: seq<Token>, last: Result<Token, LexSpec.LexError>, i: nat)
    requires i + 1 < |toks| && From(toks, last, i).Ready() && toks[i + 1].kind != Indent
    ensures From(toks, last, i + 1).Ready()
    ensures Advance(From(toks, last, i)) == Success(From(toks, last, i + 1))
  {
    var f := From(toks, last, i);
    assert f.toks[1..] == toks[i + 1..];
    AdvanceOne(f);
  }

  /** The values of the array items toks[i..n], each one token, optionally followed by a comma. */
  function Items(toks: seq<Token>, i: nat, n: nat): (vs: seq<Val>)
    requires i <= n <= |toks| && forall j :: i <= j < n ==> Spelled(toks[j])
    ensures |vs| <= n - i
    decreases n - i
  {
    if i == n then []
    else if i + 1 < n && toks[i + 1].kind == Comma then [ParseValue(toks[i])] + Items(toks, i + 2, n)
    else [ParseValue(toks[i])] + Items(toks, i + 1, n)
  }

  /**
   * The loop of parseArray over toks[i..n], the tokens before the first `]`:
   * their values in source order, after those already collected; it stops on
   * the `]`.
   */
  lemma {:induction false} ArrayOfItems(toks: seq<Token>, last: Result<Token, LexSpec.LexError>, i: nat, n: nat, acc: seq<Val>)
    requires i <= n < |toks| && From(toks, last, i).Ready() && AllScalar(acc)
    requires forall j :: i <= j <= n ==> toks[j].kind != Indent
    requires toks[n].kind == RSquare && forall j :: i <= j < n ==> toks[j].kind != RSquare
    ensures forall j :: i <= j < n ==> Spelled(toks[j])
    ensures From(toks, last, n).Ready()
    ensures ArrayItems(From(toks, last, i), acc) == Success((acc + Items(toks, i, n), From(toks, last, n)))
    decreases n - i
  {
    SpelledFrom(toks, last, i, n);
    if i < n {
      var k := ArrayItemsStep(toks, last, i, n, acc);
      var v := ParseValue(toks[i]);
      ArrayOfItems(toks, last, k, n, acc + [v]);
      Associative(acc, [v], Items(toks, k, n));
    } else {
      ArrayItemsEnd(toks, last, n, acc);
      assert acc + Items(toks, i, n) == acc;
    }
  }

  lemma Associative(a: seq<Val>, b: seq<Val>, c: seq<Val>)
    ensures a + (b + c) == (a + b) + c
  {
  }

  /** The loop of parseArray ends on the `]`. */
  lemma ArrayItemsEnd(toks: seq<Token>, last: Result<Token, LexSpec.LexError>, n: nat, acc: seq<Val>)
    requires n < |toks| && From(toks, last, n).Ready() && AllScalar(acc) && toks[n].kind == RSquare
    ensures ArrayItems(From(toks, last, n), acc) == Success((acc, From(toks, last, n)))
  {
    assert From(toks, last, n).toks[0] == toks[n];
  }

  /** One turn of the loop of parseArray on an item at i. */
  lemma ArrayItemsStep(toks: seq<Token>, last: Result<Token, LexSpec.LexError>, i: nat, n: nat, acc: seq<Val>) returns (k: nat)
    requires i < n < |toks| && From(toks, last, i).Ready() && AllScalar(acc)
    requires forall j :: i <= j <= n ==> toks[j].kind != Indent
    requires toks[n].kind == RSquare && forall j :: i <= j < n ==> toks[j].kind != RSquare
    ensures i < k <= n && From(toks, last, k).Ready() && Spelled(toks[i])
    ensures forall j :: i <= j < n ==> Spelled(toks[j])
    ensures ArrayItems(From(toks, last, i), acc) == ArrayItems(From(toks, last, k), acc + [ParseValue(toks[i])])
    ensures Items(toks, i, n) == [ParseValue(toks[i])] + Items(toks, k, n)
  {
    k := ItemAt(toks, last, i, n);
    assert From(toks, last, i).Curr() == toks[i];
  }

  /** The tokens of a feed that starts at i are spelled. */
  lemma SpelledFrom(toks: seq<Token>, last: Result<Token, LexSpec.LexError>, i: nat, n: nat)
    requires i <= n <= |toks| && From(toks, last, i).Valid()
    ensures forall j :: i <= j < n ==> Spelled(toks[j]) && toks[j].kind != Eof
  {
    var f := From(toks, last, i);
    assert forall j :: i <= j < n ==> toks[j] == f.toks[j - i];
  }

  /** One array item at i: its token, and the comma after it if there is one, are consumed. */
  lemma ItemAt(toks: seq<Token>, last: Result<Token, LexSpec.LexError>, i: nat, n: nat) returns (k: nat)
    requires i < n < |toks| && From(toks, last, i).Ready()
    requires forall j :: i <= j <= n ==> toks[j].kind != Indent
    requires toks[n].kind == RSquare && toks[i].kind != RSquare
    ensures forall j :: i <= j < n ==> Spelled(toks[j])
    ensures k == if i + 1 < n && toks[i + 1].kind == Comma then i + 2 else i + 1
    ensures From(toks, last, k).Ready()
    ensures NextItem(From(toks, last, i)) == Success((ParseValue(toks[i]), From(toks, last, k)))
    ensures Items(toks, i, n) == [ParseValue(toks[i])] + Items(toks, k, n)
  {
    SpelledFrom(toks, last, i, n);
    AdvanceAt(toks, last, i);
    var comma := i + 1 < n && toks[i + 1].kind == Comma;
    k := if comma then i + 2 else i + 1;
    if comma {
      AdvanceAt(toks, last, i + 1);
    }
  }

  /** The values of the tokens, one each. */
  function Values(ts: seq<Token>): (vs: seq<Val>)
    requires forall i :: 0 <= i < |ts| ==> Spelled(ts[i])
    ensures |vs| == |ts|
  {
    if ts == [] then [] else [ParseValue(ts[0])] + Values(ts[1..])
  }

  /** The tokens with a comma after each. */
  function WithCommas(ts: seq<Token>): (r: seq<Token>)
    ensures |r| == 2 * |ts|
  {
    if ts == [] then [] else [ts[0], Token(Comma, ",")] + WithCommas(ts[1..])
  }

  /** The i-th token sits at 2i, with a comma after it. */
  lemma {:induction false} WithCommasAt(ts: seq<Token>, i: nat)
    requires i < |ts|
    ensures WithCommas(ts)[2 * i] == ts[i] && WithCommas(ts)[2 * i + 1] == Token(Comma, ",")
    decreases i
  {
    if i > 0 {
      WithCommasAt(ts[1..], i - 1);
      var w, w1 := WithCommas(ts), WithCommas(ts[1..]);
      assert w[2 * i] == w1[2 * (i - 1)] && ts[i] == ts[1..][i - 1];
      assert w[2 * i + 1] == w1[2 * (i - 1) + 1];
    }
  }

  /** Commas are spelled, so the tokens with commas are spelled when the tokens are. */
  lemma {:induction false} WithCommasSpelled(ts: seq<Token>)
    requires forall i :: 0 <= i < |ts| ==> Spelled(ts[i])
    ensures forall j :: 0 <= j < |WithCommas(ts)| ==> Spelled(WithCommas(ts)[j])
  {
    if ts != [] {
      var w, w1 := WithCommas(ts), WithCommas(ts[1..]);
      WithCommasSpelled(ts[1..]);
      assert Spelled(w[0]) && Spelled(w[1]);
      forall j | 2 <= j < |w|
        ensures Spelled(w[j])
      {
        assert w[j] == w1[j - 2];
      }
    }
  }

  /** An item followed by a comma takes both tokens. */
  lemma ItemThenComma(toks: seq<Token>, i: nat, n: nat)
    requires i + 1 < n <= |toks| && forall j :: i <= j < n ==> Spelled(toks[j])
    requires toks[i + 1].kind == Comma
    ensures Items(toks, i, n) == [ParseValue(toks[i])] + Items(toks, i + 2, n)
  {
  }

  /** Without commas, each token from the i-th on is an item of its own. */
  lemma {:induction false} PlainItemsFrom(ts: seq<Token>, i: nat)
    requires i <= |ts| && forall j :: 0 <= j < |ts| ==> Spelled(ts[j]) && ts[j].kind != Comma
    ensures Items(ts, i, |ts|) == Values(ts[i..])
    decreases |ts| - i
  {
    if i < |ts| {
      PlainItemsFrom(ts, i + 1);
      assert ts[i..][0] == ts[i] && ts[i..][1..] == ts[i + 1..];
      assert i + 1 < |ts| ==> ts[i + 1].kind != Comma;
      assert Items(ts, i, |ts|) == [ParseValue(ts[i])] + Items(ts, i + 1, |ts|);
    }
  }

  /** w is ts with a comma after each token. */
  predicate Interleaved(ts: seq<Token>, w: seq<Token>) {
    |w| == 2 * |ts| && forall j :: 0 <= j < |ts| ==> w[2 * j] == ts[j] && w[2 * j + 1] == Token(Comma, ",")
  }

  /** With a comma after each token, each token from the i-th on is still one item. */
  lemma {:induction false} CommaItemsFrom(ts: seq<Token>, w: seq<Token>, i: nat)
    requires i <= |ts| && Interleaved(ts, w) && forall j :: 0 <= j < |w| ==> Spelled(w[j])
    requires forall j :: 0 <= j < |ts| ==> Spelled(ts[j])
    ensures Items(w, 2 * i, |w|) == Values(ts[i..])
    decreases |ts| - i
  {
    if i < |ts| {
      var a := 2 * i;
      assert a + 2 == 2 * (i + 1) && a + 2 <= |w|;
      CommaItemsFrom(ts, w, i + 1);
      assert w[a] == ts[i] && w[a + 1] == Token(Comma, ",");
      ItemThenComma(w, a, |w|);
      assert ts[i..][0] == ts[i] && ts[i..][1..] == ts[i + 1..];
      assert Values(ts[i..]) == [ParseValue(ts[i])] + Values(ts[i + 1..]);
    }
  }

  /** Commas between array items are optional: items with or without them give the same values. */
  lemma CommasOptional(ts: seq<Token>)
    requires forall i :: 0 <= i < |ts| ==> Spelled(ts[i]) && ts[i].kind != Comma
    ensures forall i :: 0 <= i < |WithCommas(ts)| ==> Spelled(WithCommas(ts)[i])
    ensures Items(ts, 0, |ts|) == Values(ts) && Items(WithCommas(ts), 0, 2 * |ts|) == Values(ts)
  {
    var w := WithCommas(ts);
    WithCommasSpelled(ts);
    forall j | 0 <= j < |ts| ensures w[2 * j] == ts[j] && w[2 * j + 1] == Token(Comma, ",") {
      WithCommasAt(ts, j);
    }
    PlainItemsFrom(ts, 0);
    CommaItemsFrom(ts, w, 0);
    assert ts[0..] == ts;
  }

  /** How far a loop got within a bound on its turns: left with a result, or still running. */
  datatype Run<T> = Done(result: T) | Running

  /**
   * The loop of parseArray as Go writes it, for at most fuel turns: it leaves
   * only on `]`, and takes a value from every other token, EOF included (null).
   */
  function ArrayLoopAsWritten(ps: Feed, acc: seq<Val>, fuel: nat): (r: Run<Result<(seq<Val>, Feed), ParseError>>)
    requires ps.Ready()
    ensures r.Done? && r.result.Success? ==> r.result.value.1.Ready() && r.result.value.1.Curr().kind == RSquare
    decreases fuel
  {
    if ps.Curr().kind == RSquare then Done(Success((acc, ps)))
    else if fuel == 0 then Running
    else
      match Advance(ps)
      case Failure(e) => Done(Failure(e))
      case Success(ps1) =>
        match SkipComma(ps1)
        case Failure(e) => Done(Failure(e))
        case Success(ps2) => ArrayLoopAsWritten(ps2, acc + [ParseValue(ps.Curr())], fuel - 1)
  }

  /**
   * At EOF the loop as written never leaves, however many turns it is given:
   * nextToken stays on EOF, which is never `]`.
   */
  lemma {:induction false} ArrayLoopNeverEndsAtEof(ps: Feed, acc: seq<Val>, fuel: nat)
    requires ps.Ready() && ps.Curr().kind == Eof
    ensures ArrayLoopAsWritten(ps, acc, fuel) == Running
    decreases fuel
  {
    if fuel > 0 {
      assert Advance(ps) == Success(ps) && SkipComma(ps) == Success(ps);
      ArrayLoopNeverEndsAtEof(ps, acc + [ParseValue(ps.Curr())], fuel - 1);
    }
  }

  /** Wherever the loop as written leaves, ArrayItems gives what it gives. */
  lemma {:induction false} ArrayItemsAgrees(ps: Feed, acc: seq<Val>, fuel: nat)
    requires ps.Ready() && AllScalar(acc) && ArrayLoopAsWritten(ps, acc, fuel).Done?
    ensures ArrayItems(ps, acc) == ArrayLoopAsWritten(ps, acc, fuel).result
    decreases fuel
  {
    if ps.Curr().kind == Eof {
      ArrayLoopNeverEndsAtEof(ps, acc, fuel);
    } else if ps.Curr().kind != RSquare {
      assert fuel > 0;
      match NextItem(ps)
      case Failure(e) =>
        ItemFails(ps, acc, fuel);
      case Success((v, ps2)) =>
        var acc2, fuel2 := acc + [v], fuel - 1;
        ItemTaken(ps, acc, fuel, v, ps2);
        AllScalarAppend(acc, v);
        assert ArrayLoopAsWritten(ps2, acc2, fuel2) == ArrayLoopAsWritten(ps, acc, fuel);
        ArrayItemsAgrees(ps2, acc2, fuel2);
    }
  }

  /** An item that fails to read ends both loops with the same error. */
  lemma ItemFails(ps: Feed, acc: seq<Val>, fuel: nat)
    requires ps.Ready() && AllScalar(acc) && fuel > 0
    requires ps.Curr().kind != Eof && ps.Curr().kind != RSquare && NextItem(ps).Failure?
    ensures ArrayItems(ps, acc) == Failure(NextItem(ps).error)
    ensures ArrayLoopAsWritten(ps, acc, fuel) == Done(Failure(NextItem(ps).error))
  {
  }

  /** An item read moves both loops on to the same place with the same values. */
  lemma ItemTaken(ps: Feed, acc: seq<Val>, fuel: nat, v: Val, ps2: Feed)
    requires ps.Ready() && AllScalar(acc) && fuel > 0
    requires ps.Curr().kind != Eof && ps.Curr().kind != RSquare && NextItem(ps) == Success((v, ps2))
    ensures v.IsScalar() && ps2.Ready()
    ensures AllScalar(acc + [v]) ==> ArrayItems(ps, acc) == ArrayItems(ps2, acc + [v])
    ensures ArrayLoopAsWritten(ps, acc, fuel) == ArrayLoopAsWritten(ps2, acc + [v], fuel - 1)
  {
  }

  /** f1 is what is left of f once some of its tokens are consumed. */
  predicate IsSuffix(f1: Feed, f: Feed) {
    |f1.toks| <= |f.toks| && f1.toks == f.toks[|f.toks| - |f1.toks|..] && f1.last == f.last
  }

  /** The INDENT loop of nextToken only drops tokens from the front, and fails only with the lexer. */
  lemma {:induction false} SkipIndentsSuffix(f: Feed)
    requires f.Valid()
    ensures SkipIndents(f).Success? ==> IsSuffix(SkipIndents(f).value, f)
    ensures f.last.Success? ==> SkipIndents(f).Success?
    decreases |f.toks|
  {
    if f.toks != [] && f.toks[0].kind == Indent {
      var g := Feed(f.toks[1..], f.last);
      SkipIndentsSuffix(g);
      if SkipIndents(g).Success? {
        var h := SkipIndents(g).value;
        assert h.toks == f.toks[|f.toks| - |h.toks|..] by {
          assert g.toks[|g.toks| - |h.toks|..] == f.toks[|f.toks| - |h.toks|..];
        }
      }
    }
  }

  /** A suffix of a suffix is a suffix. */
  lemma SuffixOfSuffix(f2: Feed, f1: Feed, f: Feed)
    requires IsSuffix(f2, f1) && IsSuffix(f1, f)
    ensures IsSuffix(f2, f)
  {
    assert f1.toks[|f1.toks| - |f2.toks|..] == f.toks[|f.toks| - |f2.toks|..];
  }

  /** nextToken leaves a suffix of the feed, and cannot fail once the lexer has reached EOF. */
  lemma AdvanceSuffix(ps: Feed)
    requires ps.Ready()
    ensures Advance(ps).Success? ==> IsSuffix(Advance(ps).value, ps)
    ensures ps.last.Success? ==> Advance(ps).Success?
  {
    var r := ps.Rest();
    assert IsSuffix(r, ps);
    SkipIndentsSuffix(r);
    if Advance(ps).Success? {
      SuffixOfSuffix(Advance(ps).value, r, ps);
    }
  }

  /** One array item leaves a suffix of the feed, and cannot fail once the lexer has reached EOF. */
  lemma NextItemSuffix(ps: Feed)
    requires ps.Ready() && ps.Curr().kind != Eof
    ensures ps.last.Success? ==> NextItem(ps).Success?
    ensures NextItem(ps).Success? ==> IsSuffix(NextItem(ps).value.1, ps)
  {
    AdvanceSuffix(ps);
    if Advance(ps).Success? {
      var ps1 := Advance(ps).value;
      AdvanceSuffix(ps1);
      if SkipComma(ps1).Success? {
        SuffixOfSuffix(SkipComma(ps1).value, ps1, ps);
      }
    }
  }

  /**
   * The corrected loop of parseArray on input with no `]` left: once the lexer
   * has reached EOF, it fails with UnterminatedArray, however many items come
   * first (the Go loop runs for ever here; see ArrayLoopNeverEndsAtEof).
   */
  lemma {:induction false} ArrayItemsUnterminated(ps: Feed, acc: seq<Val>)
    requires ps.Ready() && AllScalar(acc) && ps.last.Success?
    requires forall j :: 0 <= j < |ps.toks| ==> ps.toks[j].kind != RSquare
    ensures ArrayItems(ps, acc) == Failure(UnterminatedArray)
    decreases |ps.toks|
  {
    if ps.Curr().kind != Eof {
      assert ps.Curr() == ps.toks[0];
      NextItemSuffix(ps);
      var item := NextItem(ps).value;
      var ps2 := item.1;
      assert forall j :: 0 <= j < |ps2.toks| ==> ps2.toks[j] == ps.toks[|ps.toks| - |ps2.toks| + j];
      AllScalarAppend(acc, item.0);
      ArrayItemsUnterminated(ps2, acc + [item.0]);
    }
  }

  /** parseArray on `[` with no `]` after it before the end of input fails with UnterminatedArray. */
  lemma ArrayUnterminated(ps: Feed)
    requires ps.Ready() && ps.Curr().kind == LSquare && ps.last.Success?
    requires forall j :: 0 <= j < |ps.toks| ==> ps.toks[j].kind != RSquare
    ensures ParseArray(ps) == Failure(UnterminatedArray)
  {
    AdvanceSuffix(ps);
    var ps1 := Advance(ps).value;
    assert forall j :: 0 <= j < |ps1.toks| ==> ps1.toks[j] == ps.toks[|ps.toks| - |ps1.toks| + j];
    ArrayItemsUnterminated(ps1, []);
  }

  /** A condition `field op value` in a group: the child, and nextToken past its value. */
  lemma ConditionChild(toks: seq<Token>, last: Result<Token, LexSpec.LexError>, i: nat)
    requires i + 3 < |toks| && From(toks, last, i).Ready()
    requires forall j :: i <= j <= i + 3 ==> toks[j].kind != Indent
    requires toks[i].kind == Ident && toks[i + 1].kind != Not
    requires toks[i + 1].lexeme != "between" && toks[i + 2].kind != LSquare
    ensures Spelled(toks[i + 2]) && From(toks, last, i + 3).Ready()
    ensures NextChild(From(toks, last, i)) ==
      Success(([Cond(toks[i].lexeme, toks[i + 1].lexeme, [ParseValue(toks[i + 2])], false)], From(toks, last, i + 3)))
  {
    var f := From(toks, last, i);
    assert f.toks[0] == toks[i] && f.toks[1] == toks[i + 1] && f.toks[2] == toks[i + 2];
    PlainCondition(f);
    assert f.toks[2..] == toks[i + 2..];
    AdvanceAt(toks, last, i + 2);
  }

  /** A group loop on a DEDENT (or EOF) stops there with the children it has. */
  lemma GroupStops(toks: seq<Token>, last: Result<Token, LexSpec.LexError>, i: nat, op: string, acc: seq<Node>)
    requires i < |toks| && From(toks, last, i).Ready() && toks[i].kind == Dedent && (op == "and" || op == "or")
    requires forall k :: 0 <= k < |acc| ==> WellFormed(acc[k])
    ensures GroupBody(op, From(toks, last, i), acc) == Success((Grp(op, acc), From(toks, last, i)))
  {
    assert From(toks, last, i).toks[0] == toks[i];
  }

  /** A group loop on any other token takes the children of one turn and goes on from where the turn ends. */
  lemma GroupTakes(toks: seq<Token>, last: Result<Token, LexSpec.LexError>, i: nat, j: nat, op: string, acc: seq<Node>, children: seq<Node>)
    requires i < j <= |toks| && From(toks, last, i).Ready() && toks[i].kind != Dedent && (op == "and" || op == "or")
    requires forall k :: 0 <= k < |acc| ==> WellFormed(acc[k])
    requires NextChild(From(toks, last, i)) == Success((children, From(toks, last, j)))
    ensures forall k :: 0 <= k < |acc + children| ==> WellFormed((acc + children)[k])
    ensures From(toks, last, j).Ready()
    ensures GroupBody(op, From(toks, last, i), acc) == GroupBody(op, From(toks, last, j), acc + children)
  {
    assert From(toks, last, i).toks[0] == toks[i];
  }

  /** `group` and its operator: the loop starts after them with no children. */
  lemma GroupOpens(toks: seq<Token>, last: Result<Token, LexSpec.LexError>, i: nat)
    requires i + 2 < |toks| && From(toks, last, i).Ready()
    requires toks[i].kind == Kind.Group && (toks[i + 1].kind == And || toks[i + 1].kind == Or) && toks[i + 2].kind != Indent
    ensures toks[i + 1].lexeme == "and" || toks[i + 1].lexeme == "or"
    ensures From(toks, last, i + 2).Ready()
    ensures ParseGroup(From(toks, last, i)) == GroupBody(toks[i + 1].lexeme, From(toks, last, i + 2), [])
  {
    assert From(toks, last, i).toks[0] == toks[i];
    AdvanceAt(toks, last, i);
    AdvanceAt(toks, last, i + 1);
    assert From(toks, last, i + 1).toks[0] == toks[i + 1];
  }

  /** A nested group as one turn of its parent's loop: the group, then nextToken past the token that closed it. */
  lemma GroupChild(toks: seq<Token>, last: Result<Token, LexSpec.LexError>, i: nat, j: nat, g: Node)
    requires i < j && j + 1 < |toks| && From(toks, last, i).Ready() && toks[i].kind == Kind.Group && toks[j + 1].kind != Indent
    requires From(toks, last, j).Ready() && ParseGroup(From(toks, last, i)) == Success((g, From(toks, last, j)))
    ensures From(toks, last, j + 1).Ready()
    ensures NextChild(From(toks, last, i)) == Success(([g], From(toks, last, j + 1)))
  {
    assert From(toks, last, i).toks[0] == toks[i];
    AdvanceAt(toks, last, j);
  }

  /** A nested group that ends before the last token ends on a DEDENT, and is well formed. */
  lemma GroupEndsOnDedent(toks: seq<Token>, last: Result<Token, LexSpec.LexError>, i: nat, j: nat, g: Node)
    requires i < j < |toks| && From(toks, last, i).Ready() && toks[i].kind == Kind.Group
    requires From(toks, last, j).Ready() && ParseGroup(From(toks, last, i)) == Success((g, From(toks, last, j)))
    ensures toks[j].kind == Dedent && WellFormed(g)
  {
    assert From(toks, last, j).toks[0] == toks[j];
  }

  /** A nested group ending at j is appended to its parent's children, whose loop goes on at j + 1. */
  lemma GroupIsOneChild(toks: seq<Token>, last: Result<Token, LexSpec.LexError>, i: nat, j: nat, op: string, acc: seq<Node>, g: Node)
    requires i < j && j + 1 < |toks| && From(toks, last, i).Ready() && toks[i].kind == Kind.Group && toks[j + 1].kind != Indent
    requires (op == "and" || op == "or") && forall k :: 0 <= k < |acc| ==> WellFormed(acc[k])
    requires From(toks, last, j).Ready() && ParseGroup(From(toks, last, i)) == Success((g, From(toks, last, j)))
    ensures From(toks, last, j + 1).Ready()
    ensures forall k :: 0 <= k < |acc + [g]| ==> WellFormed((acc + [g])[k])
    ensures GroupBody(op, From(toks, last, i), acc) == GroupBody(op, From(toks, last, j + 1), acc + [g])
  {
    GroupChild(toks, last, i, j, g);
    GroupTakes(toks, last, i, j + 1, op, acc, [g]);
  }

  /**
   * Each DEDENT closes exactly one group, the innermost open one: a nested
   * group that ends on the DEDENT at j is one child of its parent, whose loop
   * goes on at j + 1; only a second DEDENT there closes the parent too.
   */
  lemma DedentClosesInnermost(toks: seq<Token>, last: Result<Token, LexSpec.LexError>, i: nat, j: nat, op: string, acc: seq<Node>, g: Node)
    requires i < j && j + 1 < |toks| && From(toks, last, i).Ready() && toks[i].kind == Kind.Group && toks[j + 1].kind != Indent
    requires (op == "and" || op == "or") && forall k :: 0 <= k < |acc| ==> WellFormed(acc[k])
    requires From(toks, last, j).Ready() && ParseGroup(From(toks, last, i)) == Success((g, From(toks, last, j)))
    ensures toks[j].kind == Dedent && WellFormed(g)
    ensures From(toks, last, j + 1).Ready()
    ensures forall k :: 0 <= k < |acc + [g]| ==> WellFormed((acc + [g])[k])
    ensures GroupBody(op, From(toks, last, i), acc) ==
      if toks[j + 1].kind == Dedent then Success((Grp(op, acc + [g]), From(toks, last, j + 1)))
      else GroupBody(op, From(toks, last, j + 1), acc + [g])
  {
    GroupEndsOnDedent(toks, last, i, j, g);
    GroupIsOneChild(toks, last, i, j, op, acc, g);
    if toks[j + 1].kind == Dedent {
      GroupStops(toks, last, j + 1, op, acc + [g]);
    }
  }

  /** Tokens i to i + 2 form a plain condition `field op value`. */
  predicate CondAt(toks: seq<Token>, i: nat) {
    && i + 2 < |toks|
    && toks[i].kind == Ident && toks[i + 1].kind != Not
    && toks[i + 1].lexeme != "between" && toks[i + 2].kind != LSquare
  }

  /** The condition parsed from tokens i to i + 2. */
  function CondNode(toks: seq<Token>, i: nat): Node
    requires CondAt(toks, i) && Spelled(toks[i + 2])
  {
    Cond(toks[i].lexeme, toks[i + 1].lexeme, [ParseValue(toks[i + 2])], false)
  }

  /**
   * The tokens of
   *     group or
   *         group and
   *             <condition>
   *         <condition>
   * without the INDENTs, which nextToken drops.
   */
  predicate NestedShape(toks: seq<Token>, last: Result<Token, LexSpec.LexError>) {
    && |toks| == 12 && last.Success? && From(toks, last, 0).Ready()
    && (forall j :: 0 <= j < |toks| ==> toks[j].kind != Indent)
    && toks[0].kind == Kind.Group && toks[1].kind == Or
    && toks[2].kind == Kind.Group && toks[3].kind == And
    && CondAt(toks, 4) && toks[7].kind == Dedent
    && CondAt(toks, 8) && toks[11].kind == Dedent
  }

  /** Every suffix of a parser state with no INDENT in it is a parser state. */
  lemma SuffixReady(toks: seq<Token>, last: Result<Token, LexSpec.LexError>, i: nat)
    requires From(toks, last, 0).Ready() && last.Success? && i <= |toks|
    requires forall j :: 0 <= j < |toks| ==> toks[j].kind != Indent
    ensures From(toks, last, i).Ready()
    ensures forall j :: 0 <= j < |toks| ==> Spelled(toks[j])
  {
    var f, g := From(toks, last, 0), From(toks, last, i);
    assert f.toks == toks;
    assert forall j :: 0 <= j < |g.toks| ==> g.toks[j] == toks[i + j];
  }

  /** A condition then a DEDENT: the group loop takes the condition and stops on the DEDENT. */
  lemma LastCondition(toks: seq<Token>, last: Result<Token, LexSpec.LexError>, i: nat, op: string, acc: seq<Node>)
    requires i + 3 < |toks| && From(toks, last, i).Ready() && CondAt(toks, i) && toks[i + 3].kind == Dedent
    requires forall j :: i <= j <= i + 3 ==> toks[j].kind != Indent
    requires (op == "and" || op == "or") && forall k :: 0 <= k < |acc| ==> WellFormed(acc[k])
    ensures Spelled(toks[i + 2]) && From(toks, last, i + 3).Ready()
    ensures GroupBody(op, From(toks, last, i), acc) == Success((Grp(op, acc + [CondNode(toks, i)]), From(toks, last, i + 3)))
  {
    ConditionChild(toks, last, i);
    GroupTakes(toks, last, i, i + 3, op, acc, [CondNode(toks, i)]);
    GroupStops(toks, last, i + 3, op, acc + [CondNode(toks, i)]);
  }

  /** A group holding one condition: the group ends on the DEDENT after the condition. */
  lemma OneConditionGroup(toks: seq<Token>, last: Result<Token, LexSpec.LexError>, i: nat)
    requires i + 5 < |toks| && From(toks, last, i).Ready()
    requires forall j :: i <= j <= i + 5 ==> toks[j].kind != Indent
    requires toks[i].kind == Kind.Group && (toks[i + 1].kind == And || toks[i + 1].kind == Or)
    requires CondAt(toks, i + 2) && toks[i + 5].kind == Dedent
    ensures Spelled(toks[i + 4]) && From(toks, last, i + 5).Ready()
    ensures ParseGroup(From(toks, last, i)) ==
      Success((Grp(toks[i + 1].lexeme, [CondNode(toks, i + 2)]), From(toks, last, i + 5)))
  {
    GroupOpens(toks, last, i);
    LastCondition(toks, last, i + 2, toks[i + 1].lexeme, []);
    assert [] + [CondNode(toks, i + 2)] == [CondNode(toks, i + 2)];
  }

  /** A group whose first child is a one-condition group and whose second is a condition. */
  lemma GroupThenCondition(toks: seq<Token>, last: Result<Token, LexSpec.LexError>, i: nat, op: string)
    requires i + 9 < |toks| && From(toks, last, i).Ready() && (op == "and" || op == "or")
    requires forall j :: i <= j <= i + 9 ==> toks[j].kind != Indent
    requires toks[i].kind == Kind.Group && (toks[i + 1].kind == And || toks[i + 1].kind == Or)
    requires CondAt(toks, i + 2) && toks[i + 5].kind == Dedent
    requires CondAt(toks, i + 6) && toks[i + 9].kind == Dedent
    ensures Spelled(toks[i + 4]) && Spelled(toks[i + 8]) && From(toks, last, i + 9).Ready()
    ensures GroupBody(op, From(toks, last, i), []) ==
      Success((Grp(op, [Grp(toks[i + 1].lexeme, [CondNode(toks, i + 2)]), CondNode(toks, i + 6)]), From(toks, last, i + 9)))
  {
    var inner := Grp(toks[i + 1].lexeme, [CondNode(toks, i + 2)]);
    OneConditionGroup(toks, last, i);
    FirstChildOfMany(toks, last, i, i + 5, op, inner);
    SecondAndLastCondition(toks, last, i + 6, op, inner);
  }

  /** After a first child `g`, a condition followed by a DEDENT is the second and last child. */
  lemma SecondAndLastCondition(toks: seq<Token>, last: Result<Token, LexSpec.LexError>, i: nat, op: string, g: Node)
    requires i + 3 < |toks| && From(toks, last, i).Ready() && CondAt(toks, i) && toks[i + 3].kind == Dedent
    requires forall j :: i <= j <= i + 3 ==> toks[j].kind != Indent
    requires (op == "and" || op == "or") && WellFormed(g)
    ensures Spelled(toks[i + 2]) && From(toks, last, i + 3).Ready()
    ensures GroupBody(op, From(toks, last, i), [g]) == Success((Grp(op, [g, CondNode(toks, i)]), From(toks, last, i + 3)))
  {
    LastCondition(toks, last, i, op, [g]);
    assert [g] + [CondNode(toks, i)] == [g, CondNode(toks, i)];
  }

  /** The first child `g` of a group, ending at j, is followed by a second one at j + 1. */
  lemma FirstChildOfMany(toks: seq<Token>, last: Result<Token, LexSpec.LexError>, i: nat, j: nat, op: string, g: Node)
    requires i < j && j + 1 < |toks| && From(toks, last, i).Ready() && toks[i].kind == Kind.Group
    requires toks[j + 1].kind != Indent && toks[j + 1].kind != Dedent && (op == "and" || op == "or")
    requires From(toks, last, j).Ready() && ParseGroup(From(toks, last, i)) == Success((g, From(toks, last, j)))
    ensures WellFormed(g) && From(toks, last, j + 1).Ready()
    ensures GroupBody(op, From(toks, last, i), []) == GroupBody(op, From(toks, last, j + 1), [g])
  {
    DedentClosesInnermost(toks, last, i, j, op, [], g);
    assert [] + [g] == [g];
  }

  /** A statement that opens with `group` is the group, and the token after it is read. */
  lemma GroupStatement(ps: Feed, g: Node, ps2: Feed, ps3: Feed)
    requires ps.Ready() && ps.Curr().kind == Kind.Group
    requires ParseGroup(ps) == Success((g, ps2)) && Advance(ps2) == Success(ps3)
    ensures ParseNext(ps) == Success((Some(g), ps3))
  {
  }

  /** The outer group of the nested shape ends on the second DEDENT. */
  lemma OuterGroup(toks: seq<Token>, last: Result<Token, LexSpec.LexError>)
    requires NestedShape(toks, last)
    ensures forall j :: 0 <= j < |toks| ==> Spelled(toks[j])
    ensures ParseGroup(From(toks, last, 0)) ==
      Success((Grp("or", [Grp("and", [CondNode(toks, 4)]), CondNode(toks, 8)]), From(toks, last, 11)))
  {
    SuffixReady(toks, last, 0);
    GroupOpens(toks, last, 0);
    SuffixReady(toks, last, 2);
    GroupThenCondition(toks, last, 2, "or");
  }

  /**
   * The nested statement `group or`, `group and`, one condition, DEDENT, a
   * second condition, DEDENT: an instance of DedentClosesInnermost, where the
   * first DEDENT closes `group and` only and the second `group or`, and the
   * statement ends with the input.
   */
  lemma DedentClosesOneGroup(toks: seq<Token>, last: Result<Token, LexSpec.LexError>)
    requires NestedShape(toks, last)
    ensures forall j :: 0 <= j < |toks| ==> Spelled(toks[j])
    ensures ParseNext(From(toks, last, 0)) ==
      Success((Some(Grp("or", [Grp("and", [CondNode(toks, 4)]), CondNode(toks, 8)])), From(toks, last, 12)))
  {
    SuffixReady(toks, last, 0);
    OuterGroup(toks, last);
    SuffixReady(toks, last, 11);
    assert From(toks, last, 11).Rest() == From(toks, last, 12);
    GroupStatement(From(toks, last, 0), Grp("or", [Grp("and", [CondNode(toks, 4)]), CondNode(toks, 8)]),
      From(toks, last, 11), From(toks, last, 12));
  }
}

=== FILE: parser.dfy ===
/**
 * The Parser of parser/parser.go: the lexer and the current token, advanced in
 * place. Its state, seen as a value, is the feed of tokens it has still to
 * read: currToken, then whatever the lexer hands out from its present state.
 * Each method is proved to do what the ParseSpec function of the same name
 * does to that feed.
 */
module Parsing {
  import opened Wrappers
  import opened Tokens
  import opened LexSpec
  import opened Lexing
  import opened Ast
  import opened ParseSpec

  /** A method's result together with the state it leaves, as the ParseSpec functions return them. */
  function With<T>(r: Result<T, ParseError>, ps: Feed): Result<(T, Feed), ParseError> {
    match r
    case Success(v) => Success((v, ps))
    case Failure(e) => Failure(e)
  }

  class Parser {
    const lexer: Lexer
    var currToken: Token

    /** currToken followed by the feed of the lexer; at EOF, EOF for ever. */
    ghost function State(): Feed
      reads this, lexer
      requires lexer.State().Valid()
    {
      if currToken.kind == Eof then Feed([], Success(currToken)) else Cons(currToken, Tokenize(lexer.State()))
    }

    ghost predicate Valid()
      reads this, lexer
    {
      && lexer.Valid()
      && State().Ready()
      && (currToken.kind == Eof ==> Tokenize(lexer.State()) == State())
    }

    /** The struct literal of NewParser; currToken holds Go's zero Token until the first nextToken. */
    constructor (lexer: Lexer)
      ensures this.lexer == lexer && currToken == Token(Eof, "")
    {
      this.lexer := lexer;
      currToken := Token(Eof, "");
    }

    /** NewParser: a parser whose current token is the lexer's first token that is not an INDENT. */
    static method New(lexer: Lexer) returns (r: Result<Parser, ParseError>)
      requires lexer.Valid()
      modifies lexer
      ensures lexer.Valid()
      ensures r.Success? ==> fresh(r.value) && r.value.lexer == lexer && r.value.Valid()
      ensures SkipIndents(Tokenize(old(lexer.State()))) == if r.Success? then Success(r.value.State()) else Failure(r.error)
    {
      var p := new Parser(lexer);
      var e := p.NextToken();
      if e.Some? {
        return Failure(e.value);
      }
      return Success(p);
    }

    /** nextToken: read tokens from the lexer until one is not an INDENT. */
    method NextToken() returns (e: Option<ParseError>)
      requires lexer.Valid()
      modifies this`currToken, lexer
      ensures lexer.Valid() && (e.None? ==> Valid())
      ensures SkipIndents(Tokenize(old(lexer.State()))) == if e.None? then Success(State()) else Failure(e.value)
      ensures old(Valid()) ==> Advance(old(State())) == SkipIndents(Tokenize(old(lexer.State())))
    {
      ghost var s0 := lexer.State();
      if Valid() {
        ConsumeCurrent();
      }
      e := ReadToken();
      if e.Some? {
        return;
      }
      while currToken.kind == Indent
        invariant lexer.Valid() && e.None?
        invariant currToken.kind == Indent ==> SkipIndents(Tokenize(s0)) == SkipIndents(Tokenize(lexer.State()))
        invariant currToken.kind != Indent ==> Valid() && SkipIndents(Tokenize(s0)) == Success(State())
        decreases lexer.State().Remaining(), lexer.State().Pending(), if currToken.kind == Indent then 1 else 0
      {
        e := ReadToken();
        if e.Some? {
          return;
        }
      }
    }

    /** Consuming currToken leaves the feed of the lexer. */
    lemma ConsumeCurrent()
      requires Valid()
      ensures State().Rest() == Tokenize(lexer.State())
    {
    }

    /** One call of the lexer into currToken, seen on the feed. */
    method ReadToken() returns (e: Option<ParseError>)
      requires lexer.Valid()
      modifies this`currToken, lexer
      ensures lexer.Valid()
      ensures e.Some? ==> SkipIndents(Tokenize(old(lexer.State()))) == Failure(e.value)
      ensures e.None? && currToken.kind == Indent ==>
        && SkipIndents(Tokenize(old(lexer.State()))) == SkipIndents(Tokenize(lexer.State()))
        && Better(lexer.State(), old(lexer.State()))
      ensures e.None? && currToken.kind != Indent ==>
        && Valid()
        && SkipIndents(Tokenize(old(lexer.State()))) == Success(State())
        && NoWorse(lexer.State(), old(lexer.State()))
    {
      TokenizeStep(lexer.State());
      var t := lexer.Next();
      if t.Failure? {
        return Some(LexFailure(t.error));
      }
      currToken := t.value;
      return None;
    }

    /** parseCondition, on the field's IDENT; it stops on the last token of the operands. */
    method ParseCondition() returns (r: Result<Node, ParseError>)
      requires Valid() && currToken.kind == Ident
      modifies this`currToken, lexer
      ensures lexer.Valid() && (r.Success? ==> Valid())
      ensures ParseSpec.ParseCondition(old(State())) == With(r, State())
    {
      var field := currToken.lexeme;
      var e := NextToken();
      if e.Some? {
        return Failure(e.value);
      }
      var negate := false;
      if currToken.kind == Not {
        negate := true;
        e := NextToken();
        if e.Some? {
          return Failure(e.value);
        }
      }
      var operator := currToken.lexeme;
      if negate && !AllowedNegateSuffix(operator) {
        return Failure(NegationNotSupported(operator));
      }
      e := NextToken();
      if e.Some? {
        return Failure(e.value);
      }
      var value := ParseOperands(operator);
      if value.Failure? {
        return Failure(value.error);
      }
      return Success(Cond(field, operator, value.value, negate));
    }

    /** The operands of parseCondition: a range for `between`, a bracketed list, or one value. */
    method ParseOperands(operator: string) returns (r: Result<seq<Val>, ParseError>)
      requires Valid()
      modifies this`currToken, lexer
      ensures lexer.Valid() && (r.Success? ==> Valid())
      ensures ParseSpec.ParseOperands(operator, old(State())) == With(r, State())
    {
      if operator == "between" {
        r := ParseRange();
      } else if currToken.kind == LSquare {
        r := ParseArray();
      } else {
        r := Success([ParseValue(currToken)]);
      }
    }

    /** parseRange: low, the AND token, high; it stops on high. */
    method ParseRange() returns (r: Result<seq<Val>, ParseError>)
      requires Valid()
      modifies this`currToken, lexer
      ensures lexer.Valid() && (r.Success? ==> Valid())
      ensures ParseSpec.ParseRange(old(State())) == With(r, State())
    {
      var low := ParseValue(currToken);
      var e := NextToken();
      if e.Some? {
        return Failure(e.value);
      }
      if currToken.kind != And {
        return Failure(ExpectedAndInRange);
      }
      e := NextToken();
      if e.Some? {
        return Failure(e.value);
      }
      return Success([low, ParseValue(currToken)]);
    }

    /** parseArray, on the `[`: the items up to the `]`, on which it stops. */
    method ParseArray() returns (r: Result<seq<Val>, ParseError>)
      requires Valid() && currToken.kind == LSquare
      modifies this`currToken, lexer
      ensures lexer.Valid() && (r.Success? ==> Valid())
      ensures ParseSpec.ParseArray(old(State())) == With(r, State())
    {
      var e := NextToken();
      if e.Some? {
        return Failure(e.value);
      }
      r := ArrayLoop();
    }

    /** The loop of parseArray: items up to the `]`. */
    method ArrayLoop() returns (r: Result<seq<Val>, ParseError>)
      requires Valid()
      modifies this`currToken, lexer
      ensures lexer.Valid() && (r.Success? ==> Valid())
      ensures ArrayItems(old(State()), []) == With(r, State())
    {
      ghost var ps0 := State();
      var arrayValues := [];
      while currToken.kind != RSquare
        invariant Valid() && AllScalar(arrayValues)
        invariant ArrayItems(ps0, []) == ArrayItems(State(), arrayValues)
        decreases |State().toks|
      {
        if currToken.kind == Eof {
          // Go goes round this loop for ever: EOF repeats and is never `]`.
          return Failure(UnterminatedArray);
        }
        var item := NextItem();
        if item.Failure? {
          return Failure(item.error);
        }
        arrayValues := arrayValues + [item.value];
      }
      return Success(arrayValues);
    }

    /** One turn of parseArray's loop: the value of currToken, then past it and an optional comma. */
    method NextItem() returns (r: Result<Val, ParseError>)
      requires Valid() && currToken.kind != Eof
      modifies this`currToken, lexer
      ensures lexer.Valid() && (r.Success? ==> Valid())
      ensures ParseSpec.NextItem(old(State())) == With(r, State())
    {
      var v := ParseValue(currToken);
      var e := NextToken();
      if e.Some? {
        return Failure(e.value);
      }
      if currToken.kind == Comma {
        e := NextToken();
        if e.Some? {
          return Failure(e.value);
        }
      }
      return Success(v);
    }

    /** parseGroup, on the GROUP token; it stops on the DEDENT (or EOF) that closes the group. */
    method ParseGroup() returns (r: Result<Node, ParseError>)
      requires Valid() && currToken.kind == Kind.Group
      modifies this`currToken, lexer
      ensures lexer.Valid() && (r.Success? ==> Valid())
      ensures ParseSpec.ParseGroup(old(State())) == With(r, State())
      decreases |State().toks|, 0
    {
      var e := NextToken();
      if e.Some? {
        return Failure(e.value);
      }
      if currToken.kind != And && currToken.kind != Or {
        return Failure(ExpectedLogicalOp(currToken.lexeme));
      }
      var logicalOp := currToken.lexeme;
      e := NextToken();
      if e.Some? {
        return Failure(e.value);
      }
      r := CollectChildren(logicalOp);
    }

    /** The loop of parseGroup: children up to the DEDENT or EOF that closes the group. */
    method CollectChildren(logicalOp: string) returns (r: Result<Node, ParseError>)
      requires Valid() && (logicalOp == "and" || logicalOp == "or")
      modifies this`currToken, lexer
      ensures lexer.Valid() && (r.Success? ==> Valid())
      ensures GroupBody(logicalOp, old(State()), []) == With(r, State())
      decreases |State().toks|, 3
    {
      ghost var ps0 := State();
      var children := [];
      while currToken.kind != Dedent && currToken.kind != Eof
        invariant Valid() && |State().toks| <= |ps0.toks|
        invariant forall i :: 0 <= i < |children| ==> WellFormed(children[i])
        invariant GroupBody(logicalOp, ps0, []) == GroupBody(logicalOp, State(), children)
        decreases |State().toks|
      {
        var child := NextChild();
        if child.Failure? {
          return Failure(child.error);
        }
        children := children + child.value;
      }
      return Success(Grp(logicalOp, children));
    }

    /** One turn of parseGroup's loop together with the nextToken that ends it. */
    method NextChild() returns (r: Result<seq<Node>, ParseError>)
      requires Valid() && currToken.kind != Eof
      modifies this`currToken, lexer
      ensures lexer.Valid() && (r.Success? ==> Valid())
      ensures ParseSpec.NextChild(old(State())) == With(r, State())
      decreases |State().toks|, 2
    {
      r := ParseChild();
      if r.Success? {
        var e := NextToken();
        if e.Some? {
          return Failure(e.value);
        }
      }
    }

    /** One turn of parseGroup's loop: a child for GROUP or IDENT, nothing for any other token. */
    method ParseChild() returns (r: Result<seq<Node>, ParseError>)
      requires Valid() && currToken.kind != Eof
      modifies this`currToken, lexer
      ensures lexer.Valid() && (r.Success? ==> Valid())
      ensures ParseSpec.ParseChild(old(State())) == With(r, State())
      decreases |State().toks|, 1
    {
      if currToken.kind == Kind.Group {
        var child := ParseGroup();
        if child.Failure? {
          return Failure(child.error);
        }
        return Success([child.value]);
      } else if currToken.kind == Ident {
        var child := ParseCondition();
        if child.Failure? {
          return Failure(child.error);
        }
        return Success([child.value]);
      }
      return Success([]);
    }

    /**
     * ParseNext: no statement at EOF; otherwise a group or a condition, after
     * which the token that ends it is consumed.
     */
    method ParseNext() returns (r: Result<Option<Node>, ParseError>)
      requires Valid()
      modifies this`currToken, lexer
      ensures lexer.Valid() && (r.Success? ==> Valid())
      ensures ParseSpec.ParseNext(old(State())) == With(r, State())
    {
      if currToken.kind == Eof {
        return Success(None);
      }
      var result: Node;
      if currToken.kind == Kind.Group {
        var g := ParseGroup();
        if g.Failure? {
          return Failure(g.error);
        }
        result := g.value;
      } else if currToken.kind == Ident {
        var c := ParseCondition();
        if c.Failure? {
          return Failure(c.error);
        }
        result := c.value;
      } else {
        return Failure(UnexpectedToken(currToken));
      }
      var e := NextToken();
      if e.Some? {
        return Failure(e.value);
      }
      return Success(Some(result));
    }
  }
}

=== FILE: parsespec.dfy ===
/**
 * The parser of parser/parser.go as functions. The parser pulls tokens from the
 * lexer one at a time; here its state is the Feed of tokens it has still to
 * read, the first being currToken, ending in the lexer's EOF or in the failure
 * that stops the lexer. A Go panic is a ParseError. The class in parser.dfy is
 * proved to follow these functions on the feed of its lexer.
 */
module ParseSpec {
  import opened Wrappers
  import opened Tokens
  import opened LexSpec
  import opened LexFacts
  import opened Ast

  datatype ParseError =
    | LexFailure(cause: LexError)        // the lexer panicked
    | UnexpectedToken(token: Token)      // a statement starts with neither GROUP nor an IDENT
    | NegationNotSupported(op: string)   // `not` before an operator that does not allow it
    | ExpectedLogicalOp(got: string)     // `group` not followed by `and` or `or`
    | ExpectedAndInRange                 // `between low high` without `and`
    | UnterminatedArray                  // `[` with no `]` before the end of input

  const EofToken := Token(Eof, "")

  /**
   * Tokens still to be read: toks, then `last` for ever after (EOF, which the
   * lexer repeats at the end of its input, or the failure that stops it).
   */
  datatype Feed = Feed(toks: seq<Token>, last: Result<Token, LexError>) {
    predicate Valid() {
      && (forall i :: 0 <= i < |toks| ==> Spelled(toks[i]) && toks[i].kind != Eof)
      && (last.Success? ==> last.value == EofToken)
    }

    /** A parser state: currToken is at hand (not a failure) and is not an INDENT. */
    predicate Ready() {
      && Valid()
      && (toks == [] ==> last.Success?)
      && (toks != [] ==> toks[0].kind != Indent)
    }

    /** currToken. */
    function Curr(): (t: Token)
      requires Ready()
      ensures Spelled(t) && t.kind != Indent && (t.kind == Eof <==> toks == [])
    {
      if toks == [] then last.value else toks[0]
    }

    /** The feed once currToken is consumed; at EOF nothing is consumed. */
    function Rest(): (f: Feed)
      requires Valid()
      ensures f.Valid() && f.last == last
      ensures toks != [] ==> f.toks == toks[1..]
      ensures toks == [] ==> f == this
    {
      if toks == [] then this else Feed(toks[1..], last)
    }
  }

  /** ps1 is a parser state reached from ps: ready, on the same end, and no longer. */
  predicate After(ps1: Feed, ps: Feed) {
    ps1.Ready() && ps1.last == ps.last && |ps1.toks| <= |ps.toks|
  }

  function Cons(t: Token, f: Feed): (r: Feed)
    ensures r.toks != [] && r.toks[0] == t && r.toks[1..] == f.toks && r.last == f.last
  {
    Feed([t] + f.toks, f.last)
  }

  /** The feed the lexer hands out from s: its tokens up to EOF, or up to its first failure. */
  function Tokenize(s: LexState): (f: Feed)
    requires s.Valid()
    ensures f.Valid()
    decreases s.Remaining(), s.Pending()
  {
    match Next(s)
    case Failure(e) => Feed([], Failure(e))
    case Success((t, s1)) =>
      ValidTokenSpelled(t);
      if t.kind == Eof then Feed([], Success(t)) else Cons(t, Tokenize(s1))
  }

  /**
   * One call of Next seen on the feed: a failure ends it, EOF ends it and
   * repeats, any other token heads the feed of the state Next leaves.
   */
  lemma TokenizeStep(s: LexState)
    requires s.Valid()
    ensures Next(s).Failure? ==> Tokenize(s) == Feed([], Failure(Next(s).error))
    ensures Next(s).Success? && Next(s).value.0.kind == Eof ==>
      && Next(s).value.0 == EofToken
      && Tokenize(s) == Feed([], Success(EofToken))
      && Tokenize(Next(s).value.1) == Tokenize(s)
    ensures Next(s).Success? && Next(s).value.0.kind != Eof ==>
      Tokenize(s) == Cons(Next(s).value.0, Tokenize(Next(s).value.1))
  {
    if Next(s).Success? && Next(s).value.0.kind == Eof {
      EofIsFinal(s);
    }
  }

  /** The INDENT-skipping loop of nextToken. */
  function SkipIndents(f: Feed): (r: Result<Feed, ParseError>)
    requires f.Valid()
    ensures r.Success? ==> After(r.value, f)
    ensures r.Failure? ==> f.last.Failure? && r.error == LexFailure(f.last.error)
    decreases |f.toks|
  {
    if f.toks == [] then
      match f.last
      case Failure(e) => Failure(LexFailure(e))
      case Success(_) => Success(f)
    else if f.toks[0].kind == Indent then
      SkipIndents(Feed(f.toks[1..], f.last))
    else
      Success(f)
  }

  /**
   * SkipIndents drops exactly the INDENTs at the head of the feed: it stops on
   * the first other token, or fails with the lexer when there is none.
   */
  lemma {:induction false} SkipIndentsDropsIndents(f: Feed)
    requires f.Valid()
    ensures SkipIndents(f).Success? ==>
      var k := |f.toks| - |SkipIndents(f).value.toks|;
      && SkipIndents(f).value.toks == f.toks[k..]
      && forall i :: 0 <= i < k ==> f.toks[i].kind == Indent
    ensures SkipIndents(f).Failure? ==> forall i :: 0 <= i < |f.toks| ==> f.toks[i].kind == Indent
    decreases |f.toks|
  {
    if f.toks != [] && f.toks[0].kind == Indent {
      var g := Feed(f.toks[1..], f.last);
      assert SkipIndents(f) == SkipIndents(g);
      SkipIndentsDropsIndents(g);
      match SkipIndents(g)
      case Success(h) =>
        var k := |f.toks| - |h.toks|;
        assert f.toks[k..] == g.toks[k - 1..];
        forall i | 0 <= i < k ensures f.toks[i].kind == Indent {
          if i > 0 { assert f.toks[i] == g.toks[i - 1]; }
        }
      case Failure(_) =>
        forall i | 0 <= i < |f.toks| ensures f.toks[i].kind == Indent {
          if i > 0 { assert f.toks[i] == g.toks[i - 1]; }
        }
    } else if f.toks != [] {
      assert SkipIndents(f) == Success(f);
    }
  }

  /** p.nextToken(): consume currToken and skip INDENTs; at EOF it stays where it is. */
  function Advance(ps: Feed): (r: Result<Feed, ParseError>)
    requires ps.Ready()
    ensures r.Success? ==> After(r.value, ps)
    ensures r.Success? && ps.toks != [] ==> |r.value.toks| < |ps.toks|
    ensures ps.toks == [] ==> r == Success(ps)
    ensures r.Failure? ==> r.error.LexFailure?
  {
    SkipIndents(ps.Rest())
  }

  /** NewParser on the lexer of an input: the first token that is not an INDENT. */
  function Begin(input: string): (r: Result<Feed, ParseError>)
    ensures r.Success? ==> r.value.Ready()
  {
    SkipIndents(Tokenize(Init(input)))
  }

  /** parseValue: the scalar a token denotes; every other kind of token silently becomes null. */
  function ParseValue(t: Token): (v: Val)
    requires Spelled(t)
    ensures v.IsScalar()
  {
    match t.kind
    case True => VBool(true)
    case False => VBool(false)
    case Nil => VNull
    case Number => VNum(DigitsValue(t.lexeme) as real)
    case Str => VStr(t.lexeme)
    case _ => VNull
  }

  /**
   * What parseValue makes of each kind of token: the booleans, the number its
   * digits spell, the string itself, and null for `nil` and for everything else.
   */
  lemma ParseValueMeaning(t: Token)
    requires Spelled(t)
    ensures ParseValue(t) == VBool(true) <==> t.kind == True
    ensures ParseValue(t) == VBool(false) <==> t.kind == False
    ensures ParseValue(t).VNum? <==> t.kind == Number
    ensures ParseValue(t).VNum? ==> ParseValue(t).n == DigitsValue(t.lexeme) as real && ParseValue(t).n >= 0.0
    ensures ParseValue(t).VStr? <==> t.kind == Str
    ensures ParseValue(t).VStr? ==> ParseValue(t).s == t.lexeme
    ensures ParseValue(t).VNull? <==> t.kind !in {True, False, Number, Str}
  {
  }

  /**
   * parseCondition, on the field's IDENT: an optional `not`, the operator
   * (the raw lexeme of whatever token comes next), then the operands. It stops
   * on the last token of the operands.
   */
  function ParseCondition(ps: Feed): (r: Result<(Node, Feed), ParseError>)
    requires ps.Ready() && ps.Curr().kind == Ident
    ensures r.Success? ==> r.value.1.Ready() && r.value.1.last == ps.last && |r.value.1.toks| < |ps.toks|
    ensures r.Success? ==> r.value.0.Cond? && r.value.0.field == ps.Curr().lexeme && WellFormed(r.value.0)
    ensures r.Failure? && r.error.NegationNotSupported? ==> !AllowedNegateSuffix(r.error.op)
  {
    var field := ps.Curr().lexeme;
    var ps1 :- Advance(ps);
    var negate := ps1.Curr().kind == Not;
    var ps2 :- if negate then Advance(ps1) else Success(ps1);
    var operator := ps2.Curr().lexeme;
    if negate && !AllowedNegateSuffix(operator) then
      Failure(NegationNotSupported(operator))
    else
      var ps3 :- Advance(ps2);
      var operands :- ParseOperands(operator, ps3);
      Success((Cond(field, operator, operands.0, negate), operands.1))
  }

  /** The operands of parseCondition: a range for `between`, a bracketed list, or one value. */
  function ParseOperands(operator: string, ps: Feed): (r: Result<(seq<Val>, Feed), ParseError>)
    requires ps.Ready()
    ensures r.Success? ==> After(r.value.1, ps)
    ensures r.Success? ==> AllScalar(r.value.0) && (operator == "between" ==> |r.value.0| == 2)
    ensures operator != "between" && ps.Curr().kind != LSquare ==> r == Success(([ParseValue(ps.Curr())], ps))
    ensures r.Failure? ==> r.error.LexFailure? || r.error == ExpectedAndInRange || r.error == UnterminatedArray
  {
    if operator == "between" then
      ParseRange(ps)
    else if ps.Curr().kind == LSquare then
      ParseArray(ps)
    else
      Success(([ParseValue(ps.Curr())], ps))
  }

  /** parseRange: low, the AND token, high; it stops on high. */
  function ParseRange(ps: Feed): (r: Result<(seq<Val>, Feed), ParseError>)
    requires ps.Ready()
    ensures r.Success? ==> After(r.value.1, ps)
    ensures r.Success? ==> |r.value.0| == 2 && r.value.0[0] == ParseValue(ps.Curr()) && AllScalar(r.value.0)
    ensures r.Failure? ==> r.error.LexFailure? || r.error == ExpectedAndInRange
  {
    var low := ParseValue(ps.Curr());
    var ps1 :- Advance(ps);
    if ps1.Curr().kind != And then
      Failure(ExpectedAndInRange)
    else
      var ps2 :- Advance(ps1);
      Success(([low, ParseValue(ps2.Curr())], ps2))
  }

  /** parseArray, on the `[`: the items up to the `]`, on which it stops. */
  function ParseArray(ps: Feed): (r: Result<(seq<Val>, Feed), ParseError>)
    requires ps.Ready() && ps.Curr().kind == LSquare
    ensures r.Success? ==> r.value.1.Ready() && r.value.1.last == ps.last && |r.value.1.toks| < |ps.toks|
    ensures r.Success? ==> r.value.1.Curr().kind == RSquare && AllScalar(r.value.0)
    ensures r.Failure? ==> r.error.LexFailure? || r.error == UnterminatedArray
  {
    var ps1 :- Advance(ps);
    ArrayItems(ps1, [])
  }

  /**
   * The loop of parseArray: a value per token, each optionally followed by a
   * comma. The Go loop never ends when the input runs out first (EOF repeats
   * and is never `]`); here that is UnterminatedArray.
   */
  function ArrayItems(ps: Feed, acc: seq<Val>): (r: Result<(seq<Val>, Feed), ParseError>)
    requires ps.Ready() && AllScalar(acc)
    ensures r.Success? ==> After(r.value.1, ps)
    ensures r.Success? ==> r.value.1.Curr().kind == RSquare && AllScalar(r.value.0)
    ensures r.Success? ==> |r.value.0| >= |acc| && r.value.0[..|acc|] == acc
    ensures ps.Curr().kind == Eof ==> r == Failure(UnterminatedArray)
    ensures r.Failure? ==> r.error.LexFailure? || r.error == UnterminatedArray
    decreases |ps.toks|
  {
    if ps.Curr().kind == RSquare then
      Success((acc, ps))
    else if ps.Curr().kind == Eof then
      Failure(UnterminatedArray)
    else
      var item :- NextItem(ps);
      var r := ArrayItems(item.1, acc + [item.0]);
      assert r.Success? ==> r.value.0[..|acc|] == (acc + [item.0])[..|acc|];
      r
  }

  /** One turn of parseArray's loop: the value of the token, then past it and an optional comma. */
  function NextItem(ps: Feed): (r: Result<(Val, Feed), ParseError>)
    requires ps.Ready() && ps.Curr().kind != Eof
    ensures r.Success? ==> After(r.value.1, ps) && |r.value.1.toks| < |ps.toks|
    ensures r.Success? ==> r.value.0 == ParseValue(ps.Curr())
    ensures r.Failure? ==> r.error.LexFailure?
  {
    var ps1 :- Advance(ps);
    var ps2 :- SkipComma(ps1);
    Success((ParseValue(ps.Curr()), ps2))
  }

  /** The optional comma after an array item. */
  function SkipComma(ps: Feed): (r: Result<Feed, ParseError>)
    requires ps.Ready()
    ensures r.Success? ==> After(r.value, ps)
    ensures r.Failure? ==> r.error.LexFailure?
  {
    if ps.Curr().kind == Comma then Advance(ps) else Success(ps)
  }

  /**
   * parseGroup, on the GROUP token: `and` or `or`, then the children up to the
   * DEDENT (or EOF) that closes the group, on which it stops.
   */
  function ParseGroup(ps: Feed): (r: Result<(Node, Feed), ParseError>)
    requires ps.Ready() && ps.Curr().kind == Kind.Group
    ensures r.Success? ==> r.value.1.Ready() && r.value.1.last == ps.last && |r.value.1.toks| < |ps.toks|
    ensures r.Success? ==> r.value.0.Grp? && WellFormed(r.value.0)
    ensures r.Success? ==> r.value.1.Curr().kind == Dedent || r.value.1.Curr().kind == Eof
    ensures Advance(ps).Failure? ==> r == Failure(Advance(ps).error)
    ensures Advance(ps).Success? && Advance(ps).value.Curr().kind != And && Advance(ps).value.Curr().kind != Or ==>
      r == Failure(ExpectedLogicalOp(Advance(ps).value.Curr().lexeme))
    ensures r.Success? ==> Advance(ps).Success? && r.value.0.logicalOp == Advance(ps).value.Curr().lexeme
    decreases |ps.toks|, 0
  {
    var ps1 :- Advance(ps);
    if ps1.Curr().kind != And && ps1.Curr().kind != Or then
      Failure(ExpectedLogicalOp(ps1.Curr().lexeme))
    else
      var ps2 :- Advance(ps1);
      GroupBody(ps1.Curr().lexeme, ps2, [])
  }

  /** One turn of parseGroup's loop: a child for GROUP or IDENT, nothing for any other token. */
  function ParseChild(ps: Feed): (r: Result<(seq<Node>, Feed), ParseError>)
    requires ps.Ready() && ps.Curr().kind != Eof
    ensures r.Success? ==> After(r.value.1, ps)
    ensures r.Success? ==> |r.value.0| <= 1 && forall i :: 0 <= i < |r.value.0| ==> WellFormed(r.value.0[i])
    ensures ps.Curr().kind != Kind.Group && ps.Curr().kind != Ident ==> r == Success(([], ps))
    decreases |ps.toks|, 1
  {
    if ps.Curr().kind == Kind.Group then
      var child :- ParseGroup(ps);
      Success(([child.0], child.1))
    else if ps.Curr().kind == Ident then
      var child :- ParseCondition(ps);
      Success(([child.0], child.1))
    else
      Success(([], ps))
  }

  /** One turn of parseGroup's loop together with the nextToken that ends it. */
  function NextChild(ps: Feed): (r: Result<(seq<Node>, Feed), ParseError>)
    requires ps.Ready() && ps.Curr().kind != Eof
    ensures r.Success? ==> After(r.value.1, ps) && |r.value.1.toks| < |ps.toks|
    ensures r.Success? ==> forall i :: 0 <= i < |r.value.0| ==> WellFormed(r.value.0[i])
    decreases |ps.toks|, 2
  {
    var child :- ParseChild(ps);
    var ps2 :- Advance(child.1);
    Success((child.0, ps2))
  }

  /** The loop of parseGroup, with the children collected so far. */
  function GroupBody(op: string, ps: Feed, acc: seq<Node>): (r: Result<(Node, Feed), ParseError>)
    requires ps.Ready() && (op == "and" || op == "or")
    requires forall i :: 0 <= i < |acc| ==> WellFormed(acc[i])
    ensures r.Success? ==> After(r.value.1, ps)
    ensures r.Success? ==> r.value.0.Grp? && r.value.0.logicalOp == op && WellFormed(r.value.0)
    ensures r.Success? ==> |r.value.0.children| >= |acc| && r.value.0.children[..|acc|] == acc
    ensures r.Success? ==> r.value.1.Curr().kind == Dedent || r.value.1.Curr().kind == Eof
    decreases |ps.toks|, 3
  {
    if ps.Curr().kind == Dedent || ps.Curr().kind == Eof then
      Success((Grp(op, acc), ps))
    else
      var child :- NextChild(ps);
      var r := GroupBody(op, child.1, acc + child.0);
      assert r.Success? ==> r.value.0.children[..|acc|] == (acc + child.0)[..|acc|];
      r
  }

  /**
   * ParseNext: no statement at EOF; a group or a condition for GROUP or IDENT,
   * after which the token that ends it is consumed; an error for anything else.
   */
  function ParseNext(ps: Feed): (r: Result<(Option<Node>, Feed), ParseError>)
    requires ps.Ready()
    ensures r.Success? ==> r.value.1.Ready() && r.value.1.last == ps.last
    ensures r.Success? ==> (r.value.0.None? <==> ps.Curr().kind == Eof)
    ensures r.Success? && r.value.0.None? ==> r.value.1 == ps
    ensures r.Success? && r.value.0.Some? ==>
      && |r.value.1.toks| < |ps.toks|
      && WellFormed(r.value.0.value)
      && (r.value.0.value.Grp? <==> ps.Curr().kind == Kind.Group)
    ensures ps.Curr().kind != Eof && ps.Curr().kind != Kind.Group && ps.Curr().kind != Ident ==>
      r == Failure(UnexpectedToken(ps.Curr()))
  {
    if ps.Curr().kind == Eof then
      Success((None, ps))
    else if ps.Curr().kind != Kind.Group && ps.Curr().kind != Ident then
      Failure(UnexpectedToken(ps.Curr()))
    else
      var stmt :- if ps.Curr().kind == Kind.Group then ParseGroup(ps) else ParseCondition(ps);
      var ps2 :- Advance(stmt.1);
      Success((Some(stmt.0), ps2))
  }
}

=== FILE: paths.dfy ===
/**
 * resolveFieldValue of evaluator/evaluator.go: a field path such as
 * `user.tags[1]` is cut into the segments the regular expression
 * `(\w+|\[\d+\])` finds, and the segments are followed through the context.
 */
module Paths {
  import opened Wrappers
  import opened Tokens
  import opened LexSpec
  import opened Ast

  /** The largest Go int; strconv.Atoi saturates there on overflow. */
  const MaxInt64: nat := 0x7FFF_FFFF_FFFF_FFFF

  datatype PathError =
    | InvalidArrayIndex(segment: string)   // a word applied to a list
    | IndexOutOfRange(index: int)          // an index past the end of a list
    | InvalidFieldPath(segment: string)    // any segment applied to a scalar or null

  /** Where a run of `\w` characters stops. */
  predicate EndOfWord(c: char) { !IsAlphaNumeric(c) }

  /** A `\w+` match. */
  predicate IsWord(s: string) {
    |s| > 0 && forall i :: 0 <= i < |s| ==> IsAlphaNumeric(s[i])
  }

  /** A `\[\d+\]` match. */
  predicate IsIndex(s: string) {
    |s| >= 3 && s[0] == '[' && s[|s| - 1] == ']' && forall i :: 1 <= i < |s| - 1 ==> IsDigit(s[i])
  }

  /** The length of the `\w+` match at the head of s (0 when there is none). */
  function WordLength(s: string): (n: nat)
    ensures n <= |s| && IsWord(s[..n]) == (n > 0)
    ensures n < |s| ==> !IsAlphaNumeric(s[n])
  {
    var n := Until(s, 0, EndOfWord);
    assert forall i :: 0 <= i < n ==> s[..n][i] == s[i];
    n
  }

  /** The length of the `\[\d+\]` match at the head of s, when there is one. */
  function IndexLength(s: string): (n: nat)
    ensures n <= |s| && (n > 0 <==> |s| > 0 && s[0] == '[' && IsIndex(s[..n]))
  {
    if |s| == 0 || s[0] != '[' then 0
    else
      var d := Until(s, 1, EndOfNumber);
      if d > 1 && d < |s| && s[d] == ']' then
        assert forall i :: 1 <= i < d ==> s[..d + 1][i] == s[i];
        d + 1
      else
        assert !IsIndex(s[..0]);
        0
  }

  /**
   * FindAllString(fieldName, -1): from the left, the longest word or the index
   * at the cursor; any other character is skipped.
   */
  function Segments(s: string): (segs: seq<string>)
    ensures forall k :: 0 <= k < |segs| ==> IsWord(segs[k]) || IsIndex(segs[k])
    decreases |s|
  {
    if s == [] then []
    else if WordLength(s) > 0 then [s[..WordLength(s)]] + Segments(s[WordLength(s)..])
    else if IndexLength(s) > 0 then [s[..IndexLength(s)]] + Segments(s[IndexLength(s)..])
    else Segments(s[1..])
  }

  /** strconv.Atoi on the digits of an index: the value, or MaxInt64 when it overflows. */
  function Atoi(digits: string): (n: nat)
    requires forall i :: 0 <= i < |digits| ==> IsDigit(digits[i])
    ensures n <= MaxInt64
    ensures n == DigitsValue(digits) || (n == MaxInt64 && DigitsValue(digits) > MaxInt64)
  {
    var v := DigitsValue(digits);
    if v > MaxInt64 then MaxInt64 else v
  }

  /**
   * One turn of the loop of resolveFieldValue: a map is looked up (a missing key
   * is null); a list takes an index; anything else is an error.
   */
  function Step(current: Val, segment: string): (r: Result<Val, PathError>)
    requires IsWord(segment) || IsIndex(segment)
    ensures current.VMap? ==> r == Success(if segment in current.entries then current.entries[segment] else VNull)
    ensures !current.VMap? && !current.VList? ==> r == Failure(InvalidFieldPath(segment))
    ensures current.VList? && !IsIndex(segment) ==> r == Failure(InvalidArrayIndex(segment))
  {
    match current
    case VMap(entries) => Success(if segment in entries then entries[segment] else VNull)
    case VList(items) =>
      if segment[0] != '[' || segment[|segment| - 1] != ']' then
        Failure(InvalidArrayIndex(segment))
      else
        var index := Atoi(segment[1..|segment| - 1]);
        if index >= |items| then Failure(IndexOutOfRange(index)) else Success(items[index])
    case _ => Failure(InvalidFieldPath(segment))
  }

  /** The loop of resolveFieldValue: the segments followed one by one from the context. */
  function Resolve(current: Val, segs: seq<string>): (r: Result<Val, PathError>)
    requires forall k :: 0 <= k < |segs| ==> IsWord(segs[k]) || IsIndex(segs[k])
    decreases |segs|
  {
    if segs == [] then Success(current)
    else
      var next :- Step(current, segs[0]);
      Resolve(next, segs[1..])
  }

  /** resolveFieldValue(fieldName, context). */
  function ResolveField(fieldName: string, context: Val): Result<Val, PathError> {
    Resolve(context, Segments(fieldName))
  }

  /** An index into a list picks the element at the index, or fails naming it when it is past the end. */
  lemma IndexStep(items: seq<Val>, digits: string)
    requires IsNumeral(digits) && |items| <= MaxInt64  // no Go slice is longer
    ensures IsIndex("[" + digits + "]")
    ensures var i := DigitsValue(digits);
      Step(VList(items), "[" + digits + "]") ==
        if i < |items| then Success(items[i]) else Failure(IndexOutOfRange(Atoi(digits)))
  {
    var seg := "[" + digits + "]";
    assert seg[1..|seg| - 1] == digits;
  }

  /** Following a path in two parts is following the first part, then the second from where it ended. */
  lemma {:induction false} ResolveAppend(current: Val, a: seq<string>, b: seq<string>)
    requires forall k :: 0 <= k < |a| ==> IsWord(a[k]) || IsIndex(a[k])
    requires forall k :: 0 <= k < |b| ==> IsWord(b[k]) || IsIndex(b[k])
    ensures forall k :: 0 <= k < |a + b| ==> IsWord((a + b)[k]) || IsIndex((a + b)[k])
    ensures Resolve(current, a + b) ==
      match Resolve(current, a)
      case Success(v) => Resolve(v, b)
      case Failure(e) => Failure(e)
    decreases |a|
  {
    assert forall k :: 0 <= k < |a + b| ==> (a + b)[k] == if k < |a| then a[k] else b[k - |a|];
    if a != [] {
      assert (a + b)[0] == a[0] && (a + b)[1..] == a[1..] + b;
      match Step(current, a[0])
      case Success(next) =>
        ResolveAppend(next, a[1..], b);
        assert Resolve(current, a + b) == Resolve(next, a[1..] + b);
        assert Resolve(current, a) == Resolve(next, a[1..]);
      case Failure(e) =>
        assert Resolve(current, a + b) == Failure(e);
    } else {
      assert a + b == b;
    }
  }

  /**
   * The text of a path: words joined by dots, an index written straight after
   * what it indexes (`user.tags[1]`).
   */
  function Render(segs: seq<string>): string
    decreases |segs|
  {
    if segs == [] then ""
    else if |segs| > 1 && IsWord(segs[1]) then segs[0] + "." + Render(segs[1..])
    else segs[0] + Render(segs[1..])
  }

  /** A word ends where the next character is not a word character. */
  lemma WordThenRest(w: string, rest: string)
    requires IsWord(w) && (rest == [] || !IsAlphaNumeric(rest[0]))
    ensures WordLength(w + rest) == |w|
    ensures (w + rest)[..|w|] == w && (w + rest)[|w|..] == rest
  {
    var s := w + rest;
    assert forall i :: 0 <= i < |w| ==> s[i] == w[i];
    UntilIsFirst(s, 0, EndOfWord, |w|);
  }

  /** An index ends at its closing bracket. */
  lemma IndexThenRest(x: string, rest: string)
    requires IsIndex(x)
    ensures WordLength(x + rest) == 0 && IndexLength(x + rest) == |x|
    ensures (x + rest)[..|x|] == x && (x + rest)[|x|..] == rest
  {
    var s := x + rest;
    assert forall i :: 0 <= i < |x| ==> s[i] == x[i];
    UntilIsFirst(s, 1, EndOfNumber, |x| - 1);
  }

  /** Cutting the text of a path gives back its segments: the scanner and Render are inverse. */
  lemma {:induction false} SegmentsOfRender(segs: seq<string>)
    requires forall k :: 0 <= k < |segs| ==> IsWord(segs[k]) || IsIndex(segs[k])
    ensures Segments(Render(segs)) == segs
    decreases |segs|
  {
    if segs != [] {
      var tail := Render(segs[1..]);
      SegmentsOfRender(segs[1..]);
      var rest := if |segs| > 1 && IsWord(segs[1]) then "." + tail else tail;
      assert Render(segs) == segs[0] + rest;
      if |segs| > 1 && IsWord(segs[1]) {
        assert Segments(rest) == Segments(tail) by {
          assert WordLength(rest) == 0;
          assert IndexLength(rest) == 0;
          assert rest[1..] == tail;
        }
      }
      assert Segments(rest) == segs[1..];
      if IsWord(segs[0]) {
        if rest != [] {
          assert !IsAlphaNumeric(rest[0]) by {
            if |segs| > 1 && IsWord(segs[1]) {
            } else {
              assert |segs| > 1 ==> IsIndex(segs[1]);
              assert |segs| > 1 && rest[0] == tail[0] == segs[1][0] == '[' by {
                assert tail == segs[1] + Render(segs[1..][1..]) || tail == segs[1] + "." + Render(segs[1..][1..]);
              }
            }
          }
        }
        WordThenRest(segs[0], rest);
      } else {
        IndexThenRest(segs[0], rest);
      }
    }
  }

  /** A path written out from valid segments resolves as those segments do. */
  lemma ResolveRendered(context: Val, segs: seq<string>)
    requires forall k :: 0 <= k < |segs| ==> IsWord(segs[k]) || IsIndex(segs[k])
    ensures ResolveField(Render(segs), context) == Resolve(context, segs)
  {
    SegmentsOfRender(segs);
  }

  /** resolveFieldValue: the loop over the segments, from the context down. */
  method ResolveFieldValue(fieldName: string, context: Val) returns (r: Result<Val, PathError>)
    ensures r == ResolveField(fieldName, context)
  {
    var matches := Segments(fieldName);
    var current := context;
    var k := 0;
    while k < |matches|
      invariant 0 <= k <= |matches|
      invariant Resolve(context, matches) == Resolve(current, matches[k..])
    {
      var next := Step(current, matches[k]);
      if next.Failure? {
        return Failure(next.error);
      }
      assert matches[k..][1..] == matches[k + 1..];
      current := next.value;
      k := k + 1;
    }
    return Success(current);
  }
}

=== FILE: tokens.dfy ===
/** Token kinds, tokens, the keyword table and the character classes of lexer/lexer.go. */
module Tokens {

  /** The closed set of token kinds (lexer.go TokenKind). */
  datatype Kind =
    | Eof | Ident | Eq | Neq | Gt | Gte | Lt | Lte | Contains | Between | In | Not
    | Str | Number | Nil | StartsWith | EndsWith | LSquare | RSquare | Comma
    | Group | And | Or | Indent | Dedent | Illegal | True | False

  datatype Token = Token(kind: Kind, lexeme: string)

  /** The character the lexer reports once it has run past the end of its input. */
  const NUL: char := 0 as char

  /** The reserved words and the kind each one lexes to. */
  const Keywords: map<string, Kind> := map[
    "eq" := Eq, "neq" := Neq, "gt" := Gt, "lt" := Lt, "gte" := Gte, "lte" := Lte,
    "contains" := Contains, "between" := Between, "not" := Not, "nil" := Nil,
    "startsWith" := StartsWith, "endsWith" := EndsWith, "in" := In,
    "true" := True, "false" := False, "group" := Group, "and" := And, "or" := Or
  ]

  /** The kinds that only a reserved word produces. */
  predicate IsKeywordKind(k: Kind) {
    k in {Eq, Neq, Gt, Lt, Gte, Lte, Contains, Between, Not, Nil, StartsWith, EndsWith, In, True, False, Group, And, Or}
  }

  /** The reserved word of a keyword kind ("" for the other kinds). */
  function Spelling(k: Kind): string {
    match k
    case Eq => "eq" case Neq => "neq" case Gt => "gt" case Lt => "lt" case Gte => "gte" case Lte => "lte"
    case Contains => "contains" case Between => "between" case Not => "not" case Nil => "nil"
    case StartsWith => "startsWith" case EndsWith => "endsWith" case In => "in"
    case True => "true" case False => "false" case Group => "group" case And => "and" case Or => "or"
    case _ => ""
  }

  /** Each keyword kind is in the keyword table under its Spelling. */
  lemma SpellingInTable(k: Kind)
    requires IsKeywordKind(k)
    ensures Spelling(k) in Keywords && Keywords[Spelling(k)] == k
  {
  }

  /** Each word of the keyword table is the Spelling of its kind: the table and Spelling are inverse. */
  lemma TableSpelling(w: string)
    requires w in Keywords
    ensures IsKeywordKind(Keywords[w]) && Spelling(Keywords[w]) == w
  {
  }

  /** lookupKeyword: the kind of a scanned word. */
  function LookupKeyword(lexeme: string): (k: Kind)
    ensures k == Ident <==> lexeme !in Keywords
    ensures k != Ident ==> IsKeywordKind(k) && Keywords[lexeme] == k && Spelling(k) == lexeme
  {
    if lexeme in Keywords then TableSpelling(lexeme); Keywords[lexeme] else Ident
  }

  predicate IsDigit(c: char) {
    '0' <= c <= '9'
  }

  predicate IsAlpha(c: char) {
    'a' <= c <= 'z' || 'A' <= c <= 'Z' || c == '_'
  }

  predicate IsAlphaNumeric(c: char) {
    IsAlpha(c) || IsDigit(c)
  }

  /** A character that may continue an identifier: field paths such as `a.b[0]` are one lexeme. */
  predicate IsIdentChar(c: char) {
    IsAlphaNumeric(c) || c == '.' || c == '[' || c == ']'
  }

  /** unicode.IsSpace applied to one input byte. */
  predicate IsSpace(c: char) {
    9 <= c as int <= 13 || c == ' ' || c as int == 0x85 || c as int == 0xA0
  }

  /** The characters skipWhitespace passes over. */
  predicate IsBlank(c: char) {
    c == ' ' || c == '\t' || c == '\n' || c == '\r'
  }

  predicate IsNumeral(s: string) {
    |s| > 0 && forall i :: 0 <= i < |s| ==> IsDigit(s[i])
  }

  predicate IsIdentifier(s: string) {
    |s| > 0 && IsAlpha(s[0]) && forall i :: 0 <= i < |s| ==> IsIdentChar(s[i])
  }

  /** The decimal value of a digit string. */
  function DigitsValue(s: string): (n: nat)
    requires forall i :: 0 <= i < |s| ==> IsDigit(s[i])
  {
    if s == [] then 0
    else
      var last := s[|s| - 1];
      assert IsDigit(last);
      DigitsValue(s[..|s| - 1]) * 10 + (last as int - '0' as int)
  }

  /**
   * The tokens a lexer can hand out: identifiers are identifier-shaped non-keywords,
   * numbers are digit runs, strings hold no quote, keyword kinds carry their keyword.
   */
  predicate ValidToken(t: Token) {
    match t.kind
    case Ident => IsIdentifier(t.lexeme) && t.lexeme !in Keywords
    case Number => IsNumeral(t.lexeme)
    case Str => forall i :: 0 <= i < |t.lexeme| ==> t.lexeme[i] != '"'
    case Illegal => t.lexeme == "Unclosed string" || |t.lexeme| == 1
    case LSquare => t.lexeme == "["
    case RSquare => t.lexeme == "]"
    case Comma => t.lexeme == ","
    case Eof => t.lexeme == ""
    case Indent => t.lexeme == ""
    case Dedent => t.lexeme == ""
    case _ => t.lexeme == Spelling(t.kind)
  }

  /** A scanned word makes a valid token: a keyword of its own kind, or an IDENT. */
  lemma KeywordTokenValid(w: string)
    requires IsIdentifier(w)
    ensures ValidToken(Token(LookupKeyword(w), w))
  {
  }

  /** The little the parser relies on about a token's lexeme. */
  predicate Spelled(t: Token) {
    && (t.kind == Number ==> IsNumeral(t.lexeme))
    && (t.kind == And ==> t.lexeme == "and")
    && (t.kind == Or ==> t.lexeme == "or")
    && (t.kind == Eof ==> t.lexeme == "")
  }

  /** Every token the lexer can hand out is spelled as the parser expects. */
  lemma ValidTokenSpelled(t: Token)
    requires ValidToken(t)
    ensures Spelled(t)
  {
  }
}

=== FILE: wrappers.dfy ===
/** Failure-compatible result types shared by the lexer, parser and evaluator models. */
module Wrappers {

  datatype Option<+T> = None | Some(value: T)

  datatype Result<+T, +E> = Success(value: T) | Failure(error: E) {

    predicate IsFailure() {
      Failure?
    }

    function PropagateFailure<U>(): Result<U, E>
      requires Failure?
    {
      Failure(error)
    }

    function Extract(): T
      requires Success?
    {
      value
    }
  }
}
